=== FILE: README.md ===
# VocalHub voice dashboard: a Dafny model of script.js

VocalHub is a browser dashboard driven by the voice. A spoken command is
lower-cased. A chain of substring tests and one regular expression turns it
into an intent, and each intent opens a card, logs the command in a chat
history of at most 25 entries, or sets a countdown timer. Two mood
classifiers pick a Spotify playlist:
- the notes classifier counts keyword tokens in the saved notes;
- the utterance classifier looks for cue words in a spoken answer.

A calculator card edits an entry string key by key.

The model is pure functions over immutable datatypes, in these modules:
- **Text**: the JavaScript string primitives `includes`, `indexOf`, `replace`, `trim`, `toLowerCase` and `join`.
- **Decimal**: `parseInt` of digits, `toString` and `padStart`.
- **Matcher**: the command chain.
- **MatcherLaws**: consequences of the chain's order.
- **Mood** and **MoodExamples**: the classifiers and playlists, with worked examples.
- **Calculator**: the calculator card.
- **Countdown**: one timer's interval and display.
- **History**: the chat history.
- **Session** and **SessionLaws**: the page state and its events.

The page's state is the `Session` datatype. It holds:
- the card ids on the page;
- the three counters;
- the history;
- the registry of timers;
- the task check boxes;
- the notes;
- the playlist shown;
- the calculator.

Each thing the page reacts to is an `Event`, and `Session.Step` applies one. The following are parameters, not computed:
- the clock, which gives the `Date.now()` stamp for ids and the time and date strings of history entries;
- the JavaScript `eval` behind the calculator's "=".

## Model

| member | source | states |
|---|---|---|
| Text.IndexOf | script.js:666 | the result is the leftmost occurrence of the pattern, and None exactly when the pattern occurs nowhere |
| Text.ReplaceFirst | script.js:666 | only the leftmost occurrence is replaced; with no occurrence the text is unchanged |
| Text.TrimSpec | script.js:666 | trimming leaves the middle slice of the text, between two all-white-space ends, and the slice neither starts nor ends with white space |
| Text.TrimEmpty | script.js:666 | trimming gives the empty string exactly when the text is all white space |
| Text.LowerChar | script.js:639 | an ASCII capital becomes the small letter 32 code points up, the Kelvin sign becomes "k"; lower-casing leaves no ASCII capital; the result is an ASCII small letter exactly when the input is an ASCII letter or the Kelvin sign; other characters are kept |
| Text.LowerAlphabet | script.js:639 | each of the 26 capitals becomes the small letter in the same place of the alphabet, and the small letters stay as they are |
| Text.Lower | script.js:639 | lower-casing keeps the length and lowers each character by LowerChar |
| Decimal.Show | script.js:558-559 | `toString` of a count gives digits with no leading zero whose value is the count |
| Decimal.PadStart2 | script.js:558-559 | `padStart(2, '0')` puts zeros in front of a shorter string until it is two long, and leaves a longer one alone |
| Decimal.PadStart2Value | script.js:558-559 | padding a numeral with zeros keeps its value |
| Decimal.LeadingZero | script.js:669 | a leading zero does not change what `parseInt` reads |
| Matcher.HitsPhraseSpec | script.js:645-675 | a rule's `||` of `includes` tests succeeds exactly when one of its phrases occurs in the command |
| Matcher.TimerSearchSpec | script.js:643 | the search returns the leftmost index where `set a timer for (\d+) minutes?` matches, and fails only if it matches nowhere |
| Matcher.TimerMinutesSpec | script.js:643 | the minutes are None exactly when the regular expression matches nowhere; otherwise they come from the leftmost match (with script.js lines 669) |
| Matcher.TimerMinutes | script.js:669 | `parseInt` of the group the regular expression of line 643 captures; no ensures of its own, its contract is TimerMinutesSpec |
| Matcher.GreedyDigitsUnique | script.js:643 | after the prefix, `\d+` followed by " minute" can only take the whole run of digits |
| Matcher.TaskTextSpec | script.js:666 | the task text is the command with its first "add a task" cut out and trimmed, or "New Task" when only white space is left |
| Matcher.TaskTextTrimmed | script.js:666 | the task text never starts or ends with white space |
| Matcher.TaskText | script.js:666 | the task text is never empty; the rest of its contract is TaskTextSpec and TaskTextTrimmed |
| Matcher.FirstFiring | script.js:643-683 | the chain stops at the first rule that fires; every rule before it fails, and None means no rule fires |
| Matcher.IntentOf | script.js:643-680 | each rule yields its own intent, carrying the task text or the parsed minutes |
| Matcher.MatchSpec | script.js:638-683 | a command is unrecognised exactly when no rule fires, and then it is kept verbatim; otherwise the intent's rule fires, no earlier rule fires, and the task text and minutes are the extracted ones |
| Matcher.Precedence | script.js:643-680 | a rule that fires, with no earlier rule firing, is the one picked |
| Matcher.Match | script.js:638-683 | the `if`/`else if` chain of the command handler; no ensures of its own, its contract is MatchSpec, Precedence and FiringBound |
| Matcher.FiringBound | script.js:643-680 | if a rule fires, the command is recognised by that rule or an earlier one |
| Matcher.MatchArguments | script.js:665-669 | an AddTask intent carries the task text, and a SetTimer intent the parsed minutes |
| MatcherLaws.MoodPhraseShadowed | script.js:655 | "play music for my mood" contains "play music", so a command holding it stops at the music rule or earlier and never yields RecommendMusic (with script.js lines 660) |
| MatcherLaws.MusicShadowsRecommend | script.js:655-662 | whenever the music rule fires, the recommendation rule is never reached |
| MatcherLaws.RecommendNeedsPhrase | script.js:660 | the recommendation intent is reached only through the phrase "recommend music" |
| MatcherLaws.SilentBeforeTimer | script.js:645-666 | a command written only in the letters, spaces and digits of "set a timer for N minutes" fires none of the ten rules before the timer |
| MatcherLaws.TimerReadsDigits | script.js:643 | after "set a timer for ", the digits followed by " minute" are read back with their value, leading zeros included, as `parseInt` reads them (with script.js lines 669) |
| MatcherLaws.TimerSpoken | script.js:643-669 | "set a timer for D minutes", for any run of digits D, yields SetTimer with the value of D |
| MatcherLaws.TimerCommand | script.js:643-669 | the page's own wording of an N-minute timer, with N printed by `toString`, sets an N-minute timer (with script.js lines 564) |
| MatcherLaws.TaskReadsText | script.js:665-666 | "add a task", then white space, then a text that neither starts nor ends with white space, gives exactly that text |
| MatcherLaws.TaskDefault | script.js:666 | "add a task" with only white space after it gives "New Task" |
| MatcherLaws.NoDigitNoTimer | script.js:643 | a command without a digit never sets a timer, so numbers spoken as words are not understood (with script.js lines 669) |
| Mood.Tokens | script.js:712 | every token is a non-empty run of small letters and digits |
| Mood.TokensSplit | script.js:712 | a separator character splits the token list into the tokens on each side |
| Mood.TokensOfJoin | script.js:703 | words joined by spaces are cut back into exactly those words (with script.js lines 712) |
| Mood.Score | script.js:715-719 | a mood's count is at most the number of tokens, and it is zero exactly when no token is one of its keywords |
| Mood.CountsOf | script.js:713-719 | each mood's count is the number of tokens that equal one of its keywords |
| Mood.CountsConcat | script.js:715-719 | counts add up over a concatenation of token lists |
| Mood.DecideSpec | script.js:721-736 | the result is neutral exactly when nothing matched; otherwise the chosen mood has the highest count, and ties go first to happy, then calm, then sad, then angry |
| Mood.Decide | script.js:721-736 | the loop that picks the leading mood; no ensures of its own, its contract is DecideSpec |
| Mood.NoCountIffNoKeyword | script.js:715-722 | the total is zero exactly when no token is a keyword of any mood |
| Mood.NeutralIffNoKeyword | script.js:702-722 | the notes read as neutral exactly when none of their tokens is a keyword |
| Mood.NotesMood | script.js:702-737 | `detectMoodFromNotes`; no ensures of its own, its contract is NeutralIffNoKeyword together with DecideSpec and CountsOf |
| Mood.UtteranceMood | script.js:756-771 | a non-neutral answer mentions a cue of the chosen mood, and no mood earlier in the order happy, sad, calm, angry is mentioned |
| Mood.PlaylistInjective | script.js:782-805 | each of the five moods gets its own playlist id, so the playlist shown tells which mood was detected |
| Mood.Playlist | script.js:785-805 | the playlist id of each mood; no ensures of its own, its contract is PlaylistInjective |
| MoodExamples.SpokenSad | script.js:756-771 | an answer with "sad" and none of the letters h, j, x, g is classified sad |
| MoodExamples.SadButCalmSpoken | script.js:756-771 | spoken, "sad but calm" is sad, because the search takes the first mood in its order |
| MoodExamples.SadButCalmNoted | script.js:702-737 | in a note, "sad but calm" is calm: one count each, and the tie goes to calm |
| MoodExamples.UnhappySpoken | script.js:756-771 | spoken, "unhappy" is happy, because it contains the cue "happy" |
| MoodExamples.UnhappyNoted | script.js:702-737 | in a note, "unhappy" is one whole token and a sad keyword only |
| MoodExamples.SampleNotesHappy | script.js:702-737 | the two sample notes the page starts with read as happy (with script.js lines 839-842) |
| Calculator.Shown | script.js:316 | the display is never empty: it shows the entry, or "0" for an empty entry |
| Calculator.Backspace | script.js:305-306 | backspace drops the last character, and an entry of at most one character becomes "0" |
| Calculator.AppendKey | script.js:312-314 | a key replaces a lone "0" unless it is "."; otherwise it is appended |
| Calculator.Press | script.js:292-317 | after any key the display shows the entry, or "0" for an empty one |
| Calculator.PressEditing | script.js:303-315 | "C", backspace, the sign key and every other key each do what their branch says, whatever the evaluator |
| Calculator.EditingIgnoresEval | script.js:303-315 | the keys other than "=" do not depend on the evaluator |
| Calculator.PressEquals | script.js:297-302 | "=" shows "Error" when evaluation throws, and the evaluator's text otherwise |
| Calculator.Clear | script.js:322-326 | the clear button empties the entry and resets the display to "0" |
| Calculator.ToggleSignTwice | script.js:307-310 | on an entry not starting with "--", pressing the sign key twice gives the entry back, except on "-0", which ends as "0" |
| Calculator.ToggleSign | script.js:307-310 | the sign key; no ensures of its own, its contract is ToggleSignTwice and PressEditing |
| Calculator.KeysNoMinus | script.js:278 | no button label starts with "-", since the minus button sends its own label |
| Calculator.PressKeepsSingleMinus | script.js:303-315 | a key other than "=" that does not start with "-" cannot make an entry start with "--" |
| Calculator.ButtonsKeepSingleMinus | script.js:278 | any run of the card's buttons other than "=" keeps the entry free of a leading "--", so ToggleSignTwice applies to every such entry (with script.js lines 303-315) |
| Calculator.BackspaceUndoesAppend | script.js:305-306 | backspace takes back a one-character key appended to a non-empty entry (with script.js lines 312-314) |
| Countdown.Start | script.js:535-540 | a new timer runs, holds `minutes * 60` seconds and shows the created text |
| Countdown.Tick | script.js:546-560 | a running timer loses one second, keeps running exactly while the duration is not negative, and then shows the seconds left, or "Time's Up!" once it has stopped; a stopped one never changes |
| Countdown.ReadFormat | script.js:558-560 | the "mm:ss" text names exactly the remaining seconds: reading it back gives that duration |
| Countdown.FormatShape | script.js:558-560 | the text is two zero-padded numerals around a colon, the seconds below 60, and together they make up the duration |
| Countdown.Format | script.js:558-560 | the "mm:ss" text; no ensures of its own, its contract is FormatShape and ReadFormat |
| Countdown.Counting | script.js:546-560 | for the first `minutes * 60` firings the timer runs and shows the seconds left |
| Countdown.Expiry | script.js:546-561 | the timer runs exactly for the first `minutes * 60` firings; after that it is stopped at -1 and shows "Time's Up!" for good |
| Countdown.RunSplit | script.js:546 | `j + k` firings are `j` firings and then `k` more |
| History.Add | script.js:55-66 | the new entry goes in front and the rest shift back by one; the length grows by one, except at 25, where the oldest entry is dropped |
| History.AddBounded | script.js:64-66 | a history within the cap of 25 stays within it |
| History.AddDropsOldest | script.js:56-66 | on a full history only the oldest entry is dropped |
| History.AddAllNewestFirst | script.js:54-68 | logging a run of entries leaves the 25 newest of them all, newest first |
| Session.NoteIdTags | script.js:440 | a note id contains "note-" and neither "task-" nor "timer-", so closing it touches only the notes counter (with script.js lines 194-195) |
| Session.TaskIdTags | script.js:498 | a task id contains "task-" and neither of the other tags (with script.js lines 194-195) |
| Session.TimerIdTags | script.js:535 | a timer id contains "timer-" and neither of the other tags (with script.js lines 196) |
| Session.CreateCard | script.js:157-179 | an id already on the page changes nothing; otherwise the card is appended and the command counter goes up, and nothing else changes |
| Session.RemoveCard | script.js:185-202 | an id not on the page changes nothing; otherwise the card goes, the note and task counters drop by one (never below zero) for ids holding their tag, and a timer id leaves the registry; the card's check box goes with it |
| Session.Log | script.js:54-68 | logging adds the entry to the history and changes nothing else |
| Session.CreateNote | script.js:439-447 | the notes counter goes up, even when no new card is created, and "create a note" is logged as "New Note Created" |
| Session.AddTask | script.js:497-508 | the tasks counter goes up, even when no new card is created, and "add a task: " with the text is logged as "New Task Added" |
| Session.SetTimer | script.js:534-565 | the registry maps the new timer's id to a freshly started countdown |
| Session.ToggleTask | script.js:514-528 | a click on a box that is not on the page changes nothing |
| Session.StepValid | script.js:157-202 | every event keeps the invariant: card ids are distinct, each card was counted, timers and boxes belong to cards on the page, timer ids carry "timer-", and the history stays within 25 (with script.js lines 514-565, 638-683) |
| Session.RunValid | script.js:157-202 | every state reached from a valid one, by any sequence of events, is valid (with script.js lines 638-683) |
| Session.RemoveAllValid | script.js:207-209 | removing cards one by one keeps the invariant |
| Session.DispatchValid | script.js:643-683 | every intent's handler keeps the invariant |
| Session.Dispatch | script.js:643-683 | the handler each intent calls; no ensures of its own, its contract is DispatchValid, DispatchKeepsTimers, UndefinedHandlers and UnrecognizedOnlyLogs |
| Session.Step | script.js:638-683 | the page's reaction to one event; no ensures of its own, its contract is StepValid, CommandDispatch, TimerKeySurvives and MoodAnswerPlaylist |
| Session.ClearAll | script.js:207-215 | `clearAllCards`; no ensures of its own, its contract is ClearAllEmpties |
| Session.Recommend | script.js:818-822 | `recommendMusic`; no ensures of its own, its contract is RecommendPlaylist |
| Session.ShowCalculator | script.js:272-286 | `showCalculator`; no ensures of its own, its contract is ReopenedCalculator |
| SessionLaws.CreateCardIdempotent | script.js:158 | creating a card twice is the same as creating it once |
| SessionLaws.CloseNewCard | script.js:157-202 | closing a card just created undoes the creation, except that the command counter keeps its increment and the counter named by the id's tag drops |
| SessionLaws.NoteOpenClose | script.js:439-447 | closing a note just created restores the cards and the counts of notes and tasks (with script.js lines 185-202) |
| SessionLaws.TaskOpenClose | script.js:497-508 | closing a task just added restores the cards, the tasks counter and the check boxes (with script.js lines 185-202) |
| SessionLaws.TimerOpenClose | script.js:534-565 | closing a timer just set takes it out of the registry again (with script.js lines 196-199) |
| SessionLaws.ToggleCounts | script.js:514-528 | ticking a box counts one task fewer (never below zero), and unticking it counts one more |
| SessionLaws.ToggleTwice | script.js:514-528 | two clicks restore the box, and restore the count exactly when the box was ticked or the count was positive; at zero the clamp swallows the decrement |
| SessionLaws.RemoveAllEmpties | script.js:207-209 | removing every card of a valid state leaves no card, no timer and no check box |
| SessionLaws.ClearAllEmpties | script.js:207-215 | "clear all cards" leaves an empty dashboard and timer registry, and logs itself first |
| SessionLaws.DispatchKeepsTimers | script.js:643-683 | every intent except clearing the dashboard keeps each registered timer |
| SessionLaws.TimerKeySurvives | script.js:185-202 | a timer stays registered under every event except closing its card and clearing the dashboard; expiring does not unregister it (with script.js lines 546-550) |
| SessionLaws.CloseTimer | script.js:196-199 | closing a timer's card takes it out of the registry |
| SessionLaws.SecondsTick | script.js:546-561 | while its firings go on, a timer stays registered and counts down as Countdown says; the set of timers does not change |
| SessionLaws.ExpiredStaysRegistered | script.js:546-561 | a timer runs for `minutes * 60` firings, has expired after one more, and is still in the registry either way (with script.js lines 563) |
| SessionLaws.CommandDispatch | script.js:638-640 | a command is the dispatch of what the matcher makes of the lower-cased transcript |
| SessionLaws.UnrecognizedOnlyLogs | script.js:677-682 | an unrecognised command only logs the lower-cased transcript as "Unrecognized Command" |
| SessionLaws.UndefinedHandlers | script.js:653-656 | the YouTube and music commands change nothing, because their handlers are not defined in script.js |
| SessionLaws.MoodAnswerPlaylist | script.js:751-775 | after a mood answer the playlist names exactly the mood the utterance classifier reads in the lower-cased answer (with script.js lines 782-805) |
| SessionLaws.RecommendPlaylist | script.js:660-662 | after a recommendation the playlist names exactly the mood of the notes, and the command is logged (with script.js lines 818-822) |
| SessionLaws.InitialRecommendHappy | script.js:818-822 | on the notes the page starts with, a recommendation plays the happy playlist (with script.js lines 839-842) |
| SessionLaws.ReopenedCalculator | script.js:268-286 | a reopened calculator shows "0" but keeps the old entry, so the next digit is appended to it (with script.js lines 312-314) |
| SessionLaws.CalculatorNeedsCard | script.js:292-294 | with no calculator card, the buttons change nothing, while the clear button still empties the entry (with script.js lines 322-326) |

## Left out
- The DOM, card HTML, notifications, speech synthesis, the sidebar, and progress bars are not modelled. This includes `updateStats`, `updateChatHistoryDisplay` and the session-time display. They only render state.
- The clock is a parameter. The `Date.now()` stamp in note, task and timer ids is given with each command, and so are the time and date strings of history entries.
- The calculator's JavaScript `eval` is a parameter. It returns the result's `toString()`, or None when evaluation throws.
- `Math.random` in the weather, quote and news cards only picks card content, which is not modelled. The GPS, clock, weather, news and quote cards are modelled as the card id and the log entry.
- `addNote` and `renderNotes` are not modelled. The notes the mood detector reads are the page's global `notes` array: the sample notes, unless another script defines it. A note without text is modelled as the empty string.
- The speech recognizers are not modelled: starting them, their errors, and which one is live. The transcript arrives in an event, and `webkitSpeechRecognition` is taken to be present.
- The mood modal and the two `recommendMusicForMood` definitions are not modelled. A mood chosen there reaches `playMoodMusic`, which is Mood.Playlist.
- The mis-decoded labels of the calculator keys ("Ã—", "âŒ«" and so on) are kept character for character. The model does not re-encode them.
- Text.Lower, Text.LowerChar: lower-case the ASCII capitals and the Kelvin sign U+212A (to "k"). It keeps every other character, while JavaScript's `toLowerCase` covers all of Unicode. The only other character whose lower case is ASCII is U+0130, the capital I with a dot above, which JavaScript lowers to "i" plus U+0307. So a transcript or note containing U+0130 can be matched or tokenised differently: JavaScript reads "SADİ" as the token "sadi", and the model reads it as "sad". Other non-ASCII capitals are not matched by any phrase or token either way, but they stay upper-case in a task text or an unrecognised command.
- Mood.NotesMood: uses Text.Lower, so for notes containing U+0130 it can differ from the page, as described for Text.Lower.
- Session.Step: lower-cases commands and mood answers with Text.Lower. For transcripts containing U+0130, the intent and the mood read can differ from the page, and non-ASCII capitals stay upper-case in logged commands and task texts.
- Matcher.TimerMinutes: reads the digits as an unbounded natural number. `parseInt` gives a double, which is exact only up to 2^53 and rounds longer numerals.
- Countdown.Expiry: counts `minutes * 60` exactly. With doubles, a duration of 2^53 or more (150119987579017 minutes or more) is a multiple of 4, and decrementing it rounds back to the same value. The page's timer then never expires and its display freezes.
- Session.SetTimer: logs the minutes with Decimal.Show, while JavaScript prints numbers of 10^21 and more in exponent form ("1e+21").
- Session.SetTimer: a timer whose stamp matches a timer card already on the page replaces the registry entry. The model does not track that the first interval keeps running with no entry. The page's expiring first interval would then clear the second one.
- Session.RemoveCard: takes the card off the page at once. The page removes it after a 400 ms animation, so closing it again or clearing all cards during that window counts it twice: the counters drop twice, and `clearInterval` runs again.
- Session.Dispatch: `showYouTube` and `playMusic` are not defined in script.js. The model assumes no other script of the page defines them, so those intents throw and leave the state unchanged.
- Interval firings of different timers are independent events. Their timing and interleaving with other events are not modelled.

=== FILE: calculator.dfy ===
/**
 The calculator card: `calcInput` and `calcClear`. The entry `calcVal` is a
 string edited key by key; the display shows it, or "0" when it is empty.

 The key labels are the exact strings the page passes to `calcInput`: the
 operator and editing keys are UTF-8 symbols read back as Windows-1252
 text, so "±" arrives as "Â±", "×" as "Ã—" and so on, and the comparisons
 in `calcInput` use those same strings.
 */
module Calculator {
  import opened Wrappers
  import opened Text

  const SignKey: string := "\U{00C2}\U{00B1}"
  const DivideKey: string := "\U{00C3}\U{00B7}"
  const TimesKey: string := "\U{00C3}\U{2014}"
  const MinusKey: string := "\U{00E2}\U{02C6}\U{2019}"
  const BackKey: string := "\U{00E2}\U{0152}\U{00AB}"

  /** The twenty buttons of the card, in the order they are laid out. */
  const Keys: seq<string> :=
    ["C", SignKey, "%", DivideKey, "7", "8", "9", TimesKey, "4", "5", "6", MinusKey,
     "1", "2", "3", "+", "0", ".", BackKey, "="]

  /** `calcVal` and the value of the display input. */
  datatype Calc = Calc(entry: string, display: string)

  /** The state when the page loads: an empty entry and the display's initial "0". */
  const Initial: Calc := Calc("", "0")

  /** What the display shows for an entry: the entry itself, or "0" when it is empty. */
  function Shown(entry: string): (r: string)
    ensures r != []
    ensures entry != [] ==> r == entry
  {
    if entry == [] then "0" else entry
  }

  predicate StartsWith(s: string, p: string) {
    |p| <= |s| && s[..|p|] == p
  }

  /** The backspace key: the last character is dropped, and an entry left empty becomes "0". */
  function Backspace(entry: string): (r: string)
    ensures |entry| <= 1 ==> r == "0"
    ensures |entry| > 1 ==> r == entry[..|entry| - 1]
  {
    var cut := if entry == [] then [] else entry[..|entry| - 1];
    if cut == [] then "0" else cut
  }

  /** The sign key: a leading "-" is toggled, except on "0" and on an entry holding "Error". */
  function ToggleSign(entry: string): string {
    if entry != "0" && !Contains(entry, "Error") then
      if StartsWith(entry, "-") then entry[1..] else "-" + entry
    else entry
  }

  /** Any other key is appended, except that it replaces a lone "0" unless it is ".". */
  function AppendKey(entry: string, key: string): (r: string)
    ensures entry == "0" && key != "." ==> r == key
    ensures entry != "0" || key == "." ==> r == entry + key
  {
    (if entry == "0" && key != "." then "" else entry) + key
  }

  /**
   The text handed to `eval` for "=": the multiplication, division and minus
   labels are rewritten into `*`, `/` and `-`.
   */
  function Expression(entry: string): string {
    ReplaceAll(ReplaceAll(ReplaceAll(entry, TimesKey, "*"), DivideKey, "/"), MinusKey, "-")
  }

  /**
   `calcInput(key)` while the calculator card is on the page. The JavaScript
   evaluator is the parameter `eval`: it yields the result's `toString()`,
   or None when evaluating throws.
   */
  function Press(c: Calc, key: string, eval: string -> Option<string>): (r: Calc)
    ensures r.display == Shown(r.entry)
  {
    var entry :=
      if key == "=" then (match eval(Expression(c.entry)) case None => "Error" case Some(v) => v)
      else if key == "C" then "0"
      else if key == BackKey then Backspace(c.entry)
      else if key == SignKey then ToggleSign(c.entry)
      else AppendKey(c.entry, key);
    Calc(entry, Shown(entry))
  }

  /** `calcClear()`: the entry is emptied and the display reset to "0". */
  function Clear(c: Calc): (r: Calc)
    ensures r == Initial
  {
    Calc("", "0")
  }

  /** Each editing key does what its branch of `calcInput` says, whatever the evaluator. */
  lemma PressEditing(c: Calc, key: string, eval: string -> Option<string>)
    requires key != "="
    ensures key == "C" ==> Press(c, key, eval) == Calc("0", "0")
    ensures key == BackKey ==> Press(c, key, eval).entry == Backspace(c.entry)
    ensures key == SignKey ==> Press(c, key, eval).entry == ToggleSign(c.entry)
    ensures key != "C" && key != BackKey && key != SignKey ==> Press(c, key, eval).entry == AppendKey(c.entry, key)
    ensures Press(c, key, eval).display != []
  {
    assert BackKey != "C" && SignKey != "C" && SignKey != BackKey;
  }

  /** The editing keys do not depend on the evaluator. */
  lemma EditingIgnoresEval(c: Calc, key: string, e1: string -> Option<string>, e2: string -> Option<string>)
    requires key != "="
    ensures Press(c, key, e1) == Press(c, key, e2)
  {
  }

  /** "=" shows "Error" when evaluation throws, and the evaluator's text otherwise. */
  lemma PressEquals(c: Calc, eval: string -> Option<string>)
    ensures eval(Expression(c.entry)).None? ==> Press(c, "=", eval) == Calc("Error", "Error")
    ensures eval(Expression(c.entry)).Some? ==> Press(c, "=", eval).entry == eval(Expression(c.entry)).value
  {
  }

  // ---------------------------------------------------------------------
  // The sign key applied twice
  // ---------------------------------------------------------------------

  /** The entry starts with two minus signs; the keys never produce one. */
  predicate DoubleMinus(entry: string) {
    |entry| >= 2 && entry[0] == '-' && entry[1] == '-'
  }

  /** A pattern that does not start with `c` occurs after a leading `c` exactly when it occurs in the rest. */
  lemma ContainsAfterChar(c: char, s: string, p: string)
    requires p != [] && p[0] != c
    ensures Contains([c] + s, p) <==> Contains(s, p)
  {
    var t := [c] + s;
    if Contains(t, p) {
      var i := IndexOf(t, p).value;
      assert i != 0 by { assert t[i..i + |p|][0] == t[i]; }
      assert t[i..i + |p|] == s[i - 1..i - 1 + |p|];
      OccursContains(s, p, i - 1);
    }
    if Contains(s, p) {
      var i := IndexOf(s, p).value;
      assert t[i + 1..i + 1 + |p|] == s[i..i + |p|];
      OccursContains(t, p, i + 1);
    }
  }

  /**
   On an entry that does not start with "--", pressing the sign key twice
   gives the entry back, except on "-0", which the first press turns into
   the "0" the second press leaves alone.
   */
  lemma ToggleSignTwice(entry: string)
    requires !DoubleMinus(entry)
    ensures ToggleSign(ToggleSign(entry)) == entry <==> entry != "-0"
  {
    if entry != "0" && !Contains(entry, "Error") {
      if StartsWith(entry, "-") {
        var rest := entry[1..];
        assert entry == [entry[0]] + rest;
        if rest != "0" {
          assert !StartsWith(rest, "-");
          ContainsAfterChar('-', rest, "Error");
          assert "-" + rest == entry;
        }
      } else {
        ContainsAfterChar('-', entry, "Error");
        assert ("-" + entry)[1..] == entry;
      }
    }
  }

  /** No button label starts with a minus sign: the minus key is the label MinusKey. */
  lemma KeysNoMinus()
    ensures forall k :: 0 <= k < |Keys| ==> Keys[k] != [] && Keys[k][0] != '-'
  {
  }

  /** A key that does not start with "-" never produces an entry starting with "--" from one that does not. */
  lemma PressKeepsSingleMinus(c: Calc, key: string, eval: string -> Option<string>)
    requires key != "=" && key != [] && key[0] != '-'
    requires !DoubleMinus(c.entry)
    ensures !DoubleMinus(Press(c, key, eval).entry)
  {
    var e := c.entry;
    var r := Press(c, key, eval).entry;
    if key == SignKey && e != "0" && !Contains(e, "Error") {
      if StartsWith(e, "-") {
        assert r == e[1..];
        if |r| >= 2 { assert r[0] == e[1]; }
      } else {
        assert r == "-" + e;
        if |e| >= 1 { assert e[..1] == [e[0]]; assert r[1] == e[0]; }
      }
    } else if key == BackKey {
      if |r| >= 2 { assert r == e[..|e| - 1]; assert r[0] == e[0] && r[1] == e[1]; }
    } else if key != "C" && key != SignKey && key != BackKey {
      if |r| >= 2 && !(e == "0" && key != ".") {
        assert r == e + key;
        if |e| >= 2 { assert r[0] == e[0] && r[1] == e[1]; }
        else if |e| == 1 { assert r[1] == key[0]; }
        else { assert r == key; }
      }
    }
  }

  /** Backspace takes back a one-character key appended to a non-empty entry. */
  lemma BackspaceUndoesAppend(entry: string, key: string)
    requires |key| == 1 && entry != []
    requires entry != "0" || key == "."
    ensures Backspace(AppendKey(entry, key)) == entry
  {
    assert (entry + key)[..|entry|] == entry;
  }

  /** The keys pressed one after the other, the first key first. */
  function PressAll(c: Calc, keys: seq<string>, eval: string -> Option<string>): (r: Calc)
    ensures keys == [] ==> r == c
    decreases |keys|
  {
    if keys == [] then c else PressAll(Press(c, keys[0], eval), keys[1..], eval)
  }

  /**
   Any run of the card's buttons other than "=" from an entry not starting
   with "--" ends on such an entry, so the sign key's law ToggleSignTwice
   applies to every entry reached that way from the initial state.
   */
  lemma {:induction false} ButtonsKeepSingleMinus(c: Calc, keys: seq<string>, eval: string -> Option<string>)
    requires forall k :: 0 <= k < |keys| ==> keys[k] in Keys && keys[k] != "="
    requires !DoubleMinus(c.entry)
    ensures !DoubleMinus(PressAll(c, keys, eval).entry)
    decreases |keys|
  {
    if keys != [] {
      KeysNoMinus();
      var k :| 0 <= k < |Keys| && Keys[k] == keys[0];
      PressKeepsSingleMinus(c, keys[0], eval);
      ButtonsKeepSingleMinus(Press(c, keys[0], eval), keys[1..], eval);
    }
  }
}

=== FILE: countdown.dfy ===
/**
 The countdown card of `setTimer`: the remaining duration in seconds, the
 text of its display, and whether its one-second interval still runs.
 */
module Countdown {
  import opened Wrappers
  import opened Text
  import opened Decimal

  const ExpiredText: string := "Time's Up!"

  /** The text the card's display is created with, before the first tick. */
  const InitialText: string := "00:00"

  /** What the card's display shows; `Shown` renders it. */
  datatype Face = Created | Remaining(seconds: nat) | TimesUp

  /** The display's text. */
  function Shown(f: Face): string {
    match f
    case Created => InitialText
    case Remaining(d) => Format(d)
    case TimesUp => ExpiredText
  }

  datatype Timer = Timer(minutes: nat, duration: int, display: Face, running: bool)

  /** A timer as `setTimer(minutes)` creates it. */
  function Start(minutes: nat): (t: Timer)
    ensures t.running && t.duration == minutes * 60 && t.display == Created
  {
    Timer(minutes, minutes * 60, Created, true)
  }

  /** The display text for a non-negative duration: minutes and seconds, each padded to two digits. */
  function Format(d: nat): string {
    PadStart2(Show(d / 60)) + ":" + PadStart2(Show(d % 60))
  }

  /**
   One firing of the interval: the duration drops by one; below zero the
   interval is cleared and the display says the time is up. A cleared
   interval does not fire again.
   */
  function Tick(t: Timer): (r: Timer)
    ensures r.minutes == t.minutes
    ensures !t.running ==> r == t
    ensures t.running ==> r.duration == t.duration - 1
    ensures t.running ==> (r.running <==> r.duration >= 0)
    ensures t.running ==> r.display == if r.duration >= 0 then Remaining(r.duration) else TimesUp
  {
    if !t.running then t
    else
      var d := t.duration - 1;
      if d < 0 then Timer(t.minutes, d, TimesUp, false)
      else Timer(t.minutes, d, Remaining(d), true)
  }

  /** `k` seconds of ticking. */
  function Run(t: Timer, k: nat): Timer
    decreases k
  {
    if k == 0 then t else Run(Tick(t), k - 1)
  }

  // ---------------------------------------------------------------------
  // Reading the display back
  // ---------------------------------------------------------------------

  /**
   The number of seconds a clock text "mm:ss" stands for: digits, a colon,
   and two digits below 60. Anything else stands for no duration.
   */
  function ReadClock(text: string): (r: Option<nat>)
    ensures r.Some? ==> exists i :: 0 <= i < |text| && text[i] == ':'
  {
    match IndexOf(text, ":")
    case None => None
    case Some(i) =>
      var mins := text[..i];
      var secs := text[i + 1..];
      assert text[i..i + 1][0] == text[i];
      if mins != [] && AllDigits(mins) && |secs| == 2 && AllDigits(secs) && Value(secs) < 60 then
        Some(Value(mins) * 60 + Value(secs))
      else None
  }

  /** The colon after a run of digits is the first one. */
  lemma ColonAfterDigits(mins: string, secs: string)
    requires AllDigits(mins)
    ensures IndexOf(mins + ":" + secs, ":") == Some(|mins|)
  {
    var s := mins + ":" + secs;
    assert OccursAt(s, ":", |mins|) by { assert s[|mins|..|mins| + 1] == ":"; }
    forall j | 0 <= j < |mins| ensures !OccursAt(s, ":", j) {
      assert s[j..j + 1][0] == mins[j];
    }
    assert FirstOccurrence(s, ":", |mins|);
    var v := IndexOf(s, ":").value;
    assert !(v < |mins|) && !(v > |mins|);
  }

  /** A number below 100 prints with at most two digits. */
  lemma ShowTwoDigits(n: nat)
    requires n < 100
    ensures |Show(n)| <= 2
  {
    if n >= 10 {
      assert Show(n) == Show(n / 10) + [DigitChar(n % 10)];
    }
  }

  /** A numeral padded to two digits, with its value. */
  lemma Padded(n: nat)
    ensures AllDigits(PadStart2(Show(n))) && Value(PadStart2(Show(n))) == n
    ensures |PadStart2(Show(n))| >= 2
    ensures n < 100 ==> |PadStart2(Show(n))| == 2
  {
    PadStart2Value(Show(n));
    if n < 100 {
      ShowTwoDigits(n);
    }
  }

  /** The display text is two zero-padded numerals around a colon, seconds below 60. */
  lemma FormatShape(d: nat)
    ensures var mins := PadStart2(Show(d / 60));
            var secs := PadStart2(Show(d % 60));
            Format(d) == mins + ":" + secs && |mins| >= 2 && |secs| == 2 &&
            AllDigits(mins) && AllDigits(secs) && Value(secs) < 60 && Value(mins) * 60 + Value(secs) == d
  {
    var q, r := d / 60, d % 60;
    assert q * 60 + r == d && r < 60;
    Padded(q);
    Padded(r);
  }

  /** The display text names exactly the remaining duration: reading it back gives that duration. */
  lemma ReadFormat(d: nat)
    ensures ReadClock(Format(d)) == Some(d)
  {
    var mins := PadStart2(Show(d / 60));
    var secs := PadStart2(Show(d % 60));
    FormatShape(d);
    ColonAfterDigits(mins, secs);
    var s := mins + ":" + secs;
    assert s[..|mins|] == mins && s[|mins| + 1..] == secs;
  }

  // ---------------------------------------------------------------------
  // A whole countdown
  // ---------------------------------------------------------------------

  /**
   For the first `minutes * 60` seconds the timer runs and shows the seconds
   left (the created text "00:00" until the first tick).
   */
  lemma {:induction false} Counting(minutes: nat, k: nat)
    requires k <= minutes * 60
    ensures Run(Start(minutes), k).running
    ensures Run(Start(minutes), k).duration == minutes * 60 - k
    ensures Run(Start(minutes), k).display == if k == 0 then Created else Remaining(minutes * 60 - k)
    ensures Run(Start(minutes), k).minutes == minutes
    decreases k
  {
    if k > 0 {
      Counting(minutes, k - 1);
      RunLast(Start(minutes), k - 1);
      var prev := Run(Start(minutes), k - 1);
      var d := minutes * 60 - k;
      assert prev.duration - 1 == d;
      assert Tick(prev) == Timer(minutes, d, Remaining(d), true);
    }
  }

  /** Ticking `k + 1` times is ticking `k` times and once more. */
  lemma {:induction false} RunLast(t: Timer, k: nat)
    ensures Run(t, k + 1) == Tick(Run(t, k))
    decreases k
  {
    if k > 0 {
      RunLast(Tick(t), k - 1);
    }
  }

  /** A stopped timer stays as it is. */
  lemma {:induction false} RunStopped(t: Timer, k: nat)
    requires !t.running
    ensures Run(t, k) == t
    decreases k
  {
    if k > 0 {
      RunStopped(Tick(t), k - 1);
    }
  }

  /**
   The timer expires on tick `minutes * 60 + 1` and not before, and from
   then on it shows "Time's Up!" and no longer changes.
   */
  lemma Expiry(minutes: nat, k: nat)
    ensures Run(Start(minutes), k).running <==> k <= minutes * 60
    ensures k > minutes * 60 ==> Run(Start(minutes), k) == Timer(minutes, -1, TimesUp, false)
  {
    if k <= minutes * 60 {
      Counting(minutes, k);
    } else {
      var n := minutes * 60;
      Counting(minutes, n);
      RunLast(Start(minutes), n);
      var expired := Run(Start(minutes), n + 1);
      assert expired == Timer(minutes, -1, TimesUp, false);
      RunSplit(Start(minutes), n + 1, k - (n + 1));
      RunStopped(expired, k - (n + 1));
    }
  }

  /** Ticking `j + k` times is ticking `j` times and then `k` times. */
  lemma {:induction false} RunSplit(t: Timer, j: nat, k: nat)
    ensures Run(t, j + k) == Run(Run(t, j), k)
    decreases j
  {
    if j > 0 {
      RunSplit(Tick(t), j - 1, k);
    }
  }
}

=== FILE: decimal.dfy ===
/**
 Decimal digit strings: `parseInt` of a run of digits, `Number.prototype.toString`
 for non-negative integers, and `padStart(2, '0')`, as used by the timer
 command and the countdown display.
 */
module Decimal {

  predicate IsDigit(c: char) {
    '0' <= c <= '9'
  }

  predicate AllDigits(s: string) {
    forall k :: 0 <= k < |s| ==> IsDigit(s[k])
  }

  function DigitValue(c: char): (d: nat)
    requires IsDigit(c)
    ensures d < 10
  {
    c as int - '0' as int
  }

  function DigitChar(d: nat): (c: char)
    requires d < 10
    ensures IsDigit(c) && DigitValue(c) == d
  {
    ('0' as int + d) as char
  }

  /** The number a string of decimal digits denotes, most significant digit first. */
  function Value(s: string): nat
    requires AllDigits(s)
  {
    if s == [] then 0 else Value(s[..|s| - 1]) * 10 + DigitValue(s[|s| - 1])
  }

  /** `n.toString()`: the canonical decimal numeral, with no leading zero. */
  function Show(n: nat): (r: string)
    ensures |r| >= 1 && AllDigits(r)
    ensures r[0] != '0' || r == "0"
    ensures Value(r) == n
    decreases n
  {
    if n < 10 then [DigitChar(n)]
    else
      var r := Show(n / 10) + [DigitChar(n % 10)];
      assert r[..|r| - 1] == Show(n / 10);
      r
  }

  /** Leading zeros do not change the value of a numeral. */
  lemma {:induction false} LeadingZero(s: string)
    requires AllDigits(s)
    ensures AllDigits("0" + s) && Value("0" + s) == Value(s)
    decreases |s|
  {
    if s != [] {
      var init := s[..|s| - 1];
      LeadingZero(init);
      assert ("0" + s)[..|"0" + s| - 1] == "0" + init;
    }
  }

  /** `s.padStart(2, '0')`: zeros are added in front until the length is at least 2. */
  function PadStart2(s: string): (r: string)
    ensures |r| == if |s| < 2 then 2 else |s|
    ensures r[|r| - |s|..] == s
    ensures forall k :: 0 <= k < |r| - |s| ==> r[k] == '0'
  {
    if |s| >= 2 then s else if |s| == 1 then "0" + s else "00"
  }

  /** Padding a numeral keeps it a numeral of the same value. */
  lemma PadStart2Value(s: string)
    requires AllDigits(s)
    ensures AllDigits(PadStart2(s)) && Value(PadStart2(s)) == Value(s)
  {
    if |s| == 1 {
      LeadingZero(s);
    } else if |s| == 0 {
      LeadingZero("0");
    }
  }
}

=== FILE: history.dfy ===
/**
 The chat history of `addToChatHistory`: newest entry first, at most 25
 entries, the oldest dropped when a new one would make it 26.
 */
module History {

  /** The most entries the history keeps. */
  const Cap: nat := 25

  /** The clock's time and date strings when an entry is logged; the model treats them as given. */
  datatype Stamp = Stamp(time: string, date: string)

  datatype Entry = Entry(command: string, action: string, at: Stamp)

  /** `unshift` of the new entry, then one `pop` when the length exceeds the cap. */
  function Add(h: seq<Entry>, e: Entry): (r: seq<Entry>)
    ensures |r| == if |h| + 1 > Cap then |h| else |h| + 1
    ensures r != [] && r[0] == e
    ensures forall i :: 1 <= i < |r| ==> r[i] == h[i - 1]
  {
    var grown := [e] + h;
    if |grown| > Cap then grown[..|grown| - 1] else grown
  }

  /** A history within the cap stays within it. */
  lemma AddBounded(h: seq<Entry>, e: Entry)
    requires |h| <= Cap
    ensures |Add(h, e)| <= Cap
    ensures |h| < Cap ==> Add(h, e) == [e] + h
  {
  }

  /** On a full history only the oldest entry is dropped: putting it back gives the history with the new entry in front. */
  lemma AddDropsOldest(h: seq<Entry>, e: Entry)
    requires |h| == Cap
    ensures |Add(h, e)| == Cap
    ensures Add(h, e) + [h[Cap - 1]] == [e] + h
  {
  }

  /** The first `n` elements of `s`, or all of it when it is shorter. */
  function Take<T>(s: seq<T>, n: nat): (r: seq<T>)
    ensures |r| == if |s| <= n then |s| else n
    ensures forall i :: 0 <= i < |r| ==> r[i] == s[i]
  {
    if |s| <= n then s else s[..n]
  }

  function Reverse<T>(s: seq<T>): (r: seq<T>)
    ensures |r| == |s|
    ensures forall i :: 0 <= i < |s| ==> r[i] == s[|s| - 1 - i]
  {
    if s == [] then [] else Reverse(s[1..]) + [s[0]]
  }

  /** The entries logged one after the other, the first entry first. */
  function AddAll(h: seq<Entry>, es: seq<Entry>): seq<Entry>
    decreases |es|
  {
    if es == [] then h else AddAll(Add(h, es[0]), es[1..])
  }

  /** Cutting to `n` after putting `a` in front of a list already cut to `n` is cutting once. */
  lemma TakeFront<T>(a: seq<T>, b: seq<T>, n: nat)
    ensures Take(a + Take(b, n), n) == Take(a + b, n)
  {
    var l := Take(a + Take(b, n), n);
    var r := Take(a + b, n);
    assert |l| == |r|;
    forall i | 0 <= i < |l| ensures l[i] == r[i] {
      if i >= |a| {
        assert (a + Take(b, n))[i] == Take(b, n)[i - |a|];
      }
    }
  }

  /**
   From a history within the cap, logging a run of entries leaves the 25
   newest of all entries, newest first: the run reversed, then the old history.
   */
  lemma {:induction false} AddAllNewestFirst(h: seq<Entry>, es: seq<Entry>)
    requires |h| <= Cap
    ensures AddAll(h, es) == Take(Reverse(es) + h, Cap)
    decreases |es|
  {
    if es == [] {
      assert Reverse(es) + h == h;
    } else {
      var h1 := Add(h, es[0]);
      assert h1 == Take([es[0]] + h, Cap);
      AddBounded(h, es[0]);
      AddAllNewestFirst(h1, es[1..]);
      TakeFront(Reverse(es[1..]), [es[0]] + h, Cap);
      assert Reverse(es[1..]) + ([es[0]] + h) == Reverse(es) + h;
    }
  }
}

=== FILE: matcher.dfy ===
/**
 The voice-command matcher: the chain of tests run on each lower-cased
 transcript when a command is recognised. Each rule is a set of phrases
 tested with `includes`, except the timer rule, which is the regular
 expression `set a timer for (\d+) minutes?`. Rules are tried in a fixed
 order and the first one that fires decides the intent.
 */
module Matcher {
  import opened Wrappers
  import opened Text
  import Decimal

  /** What a command asks the dashboard to do. */
  datatype Intent =
    | ShowWeather
    | ShowCalculator
    | ShowGps
    | ShowClock
    | ShowYouTube
    | PlayMusic
    | AskMood
    | RecommendMusic
    | CreateNote
    | AddTask(text: string)
    | SetTimer(minutes: nat)
    | ShowNews
    | ShowQuote
    | ClearAll
    | Unrecognized(command: string)

  /** The rules of the chain. */
  datatype Rule =
    | WeatherRule | CalculatorRule | GpsRule | ClockRule | YouTubeRule | MusicRule
    | AskMoodRule | RecommendRule | NoteRule | TaskRule | TimerRule | NewsRule
    | QuoteRule | ClearRule

  /** The position of a rule in the chain; a smaller rank is tried earlier. */
  function Rank(rule: Rule): nat {
    match rule
    case WeatherRule => 0
    case CalculatorRule => 1
    case GpsRule => 2
    case ClockRule => 3
    case YouTubeRule => 4
    case MusicRule => 5
    case AskMoodRule => 6
    case RecommendRule => 7
    case NoteRule => 8
    case TaskRule => 9
    case TimerRule => 10
    case NewsRule => 11
    case QuoteRule => 12
    case ClearRule => 13
  }

  /** The phrases each substring rule looks for, listed by rank; the timer rule has none. */
  const PhraseTable: seq<seq<string>> := [
    ["show weather", "weather forecast"],
    ["show calculator", "calculator"],
    ["show gps", "gps", "location"],
    ["show clock", "live clock"],
    ["show youtube", "youtube"],
    ["play music", "background music"],
    ["ask my mood", "detect mood", "how is my mood"],
    ["recommend music", "play music for my mood"],
    ["create a note"],
    [TaskPhrase],
    [],
    ["show the news"],
    ["show a random quote", "random quote"],
    ["clear all cards"]
  ]

  function Phrases(rule: Rule): seq<string> {
    PhraseTable[Rank(rule)]
  }

  /** Some phrase of the list occurs in the command. */
  predicate HitsPhrase(cmd: string, phrases: seq<string>) {
    phrases != [] && (Contains(cmd, phrases[0]) || HitsPhrase(cmd, phrases[1..]))
  }

  /** A phrase list is hit exactly when one of its phrases occurs in the command. */
  lemma {:induction false} HitsPhraseSpec(cmd: string, phrases: seq<string>)
    ensures HitsPhrase(cmd, phrases) <==> exists k :: 0 <= k < |phrases| && Contains(cmd, phrases[k])
    decreases |phrases|
  {
    if phrases != [] {
      HitsPhraseSpec(cmd, phrases[1..]);
      if HitsPhrase(cmd, phrases[1..]) {
        var k :| 0 <= k < |phrases[1..]| && Contains(cmd, phrases[1..][k]);
        assert phrases[k + 1] == phrases[1..][k];
      }
      if !Contains(cmd, phrases[0]) && exists k :: 0 <= k < |phrases| && Contains(cmd, phrases[k]) {
        var k :| 0 <= k < |phrases| && Contains(cmd, phrases[k]);
        assert phrases[1..][k - 1] == phrases[k];
      }
    }
  }

  /** The rule's test succeeds on the command. */
  predicate Fires(rule: Rule, cmd: string) {
    if rule == TimerRule then TimerMinutes(cmd).Some? else HitsPhrase(cmd, Phrases(rule))
  }

  /** The rule that produces an intent. */
  function RuleOf(intent: Intent): Rule
    requires !intent.Unrecognized?
  {
    match intent
    case ShowWeather => WeatherRule
    case ShowCalculator => CalculatorRule
    case ShowGps => GpsRule
    case ShowClock => ClockRule
    case ShowYouTube => YouTubeRule
    case PlayMusic => MusicRule
    case AskMood => AskMoodRule
    case RecommendMusic => RecommendRule
    case CreateNote => NoteRule
    case AddTask(_) => TaskRule
    case SetTimer(_) => TimerRule
    case ShowNews => NewsRule
    case ShowQuote => QuoteRule
    case ClearAll => ClearRule
  }

  // ---------------------------------------------------------------------
  // Timer rule: the regular expression  set a timer for (\d+) minutes?
  // ---------------------------------------------------------------------

  const TimerPrefix: string := "set a timer for "
  const TimerSuffix: string := " minute"

  /** The length of the run of digits starting at index `j`, which `\d+` consumes greedily. */
  function DigitRun(s: string, j: nat): (n: nat)
    requires j <= |s|
    ensures j + n <= |s|
    ensures forall k :: j <= k < j + n ==> Decimal.IsDigit(s[k])
    ensures j + n == |s| || !Decimal.IsDigit(s[j + n])
    decreases |s| - j
  {
    if j < |s| && Decimal.IsDigit(s[j]) then 1 + DigitRun(s, j + 1) else 0
  }

  /**
   The captured minutes when the regular expression matches at index `i`.
   The trailing `s?` is optional, so a match needs only " minute" after the
   digits; and since " minute" starts with a non-digit, the only way for
   `\d+` to be followed by it is to take the whole run of digits
   (see GreedyDigitsUnique), which is what a backtracking engine captures.
   */
  function TimerAt(s: string, i: nat): Option<nat> {
    if !OccursAt(s, TimerPrefix, i) then None
    else
      var j := i + |TimerPrefix|;
      var n := DigitRun(s, j);
      if n >= 1 && OccursAt(s, TimerSuffix, j + n) then Some(Decimal.Value(s[j..j + n])) else None
  }

  /** The least index from `i` to `n` at which `hit` holds. */
  function FirstHit(hit: nat -> bool, i: nat, n: nat): (r: Option<nat>)
    requires i <= n
    ensures r.Some? ==> i <= r.value <= n && hit(r.value) && forall k :: i <= k < r.value ==> !hit(k)
    ensures r.None? ==> forall k :: i <= k <= n ==> !hit(k)
    decreases n - i
  {
    if hit(i) then Some(i)
    else if i == n then None
    else FirstHit(hit, i + 1, n)
  }

  /** The leftmost index at or after `i` where the regular expression matches (see TimerSearchSpec). */
  function TimerSearch(s: string, i: nat): Option<nat>
    requires i <= |s|
  {
    FirstHit(TimerHits(s), i, |s|)
  }

  /** The indexes where the regular expression matches. */
  function TimerHits(s: string): nat -> bool {
    (k: nat) => TimerAt(s, k).Some?
  }

  /** The search finds the leftmost match at or after `i`, and fails only when there is none. */
  lemma TimerSearchSpec(s: string, i: nat)
    requires i <= |s|
    ensures var r := TimerSearch(s, i);
            && (r.Some? ==> i <= r.value <= |s| && TimerAt(s, r.value).Some?)
            && (r.Some? ==> forall k :: i <= k < r.value ==> TimerAt(s, k).None?)
            && (r.None? ==> forall k :: i <= k ==> TimerAt(s, k).None?)
  {
    var hit := TimerHits(s);
    var r := FirstHit(hit, i, |s|);
    if r.None? {
      forall k | i <= k ensures TimerAt(s, k).None? {
        if k <= |s| {
          assert !hit(k);
        } else {
          NoTimerPastEnd(s, k);
        }
      }
    } else {
      assert hit(r.value);
      forall k | i <= k < r.value ensures TimerAt(s, k).None? {
        assert !hit(k);
      }
    }
  }

  /** The regular expression cannot match from the end of the text on. */
  lemma NoTimerPastEnd(s: string, k: nat)
    requires |s| <= k
    ensures TimerAt(s, k).None?
  {
  }

  /** `parseInt` of the group captured by `cmd.match(...)`, or None when it does not match. */
  function TimerMinutes(cmd: string): Option<nat> {
    match TimerSearch(cmd, 0)
    case None => None
    case Some(k) => TimerAt(cmd, k)
  }

  /**
   The match fails exactly when the regular expression matches nowhere, and
   otherwise yields the minutes captured at the leftmost match.
   */
  lemma TimerMinutesSpec(cmd: string)
    ensures TimerMinutes(cmd).None? <==> forall k :: TimerAt(cmd, k).None?
    ensures TimerMinutes(cmd).Some? ==>
              exists k: nat :: TimerAt(cmd, k) == TimerMinutes(cmd) && forall k' :: 0 <= k' < k ==> TimerAt(cmd, k').None?
  {
    TimerSearchSpec(cmd, 0);
    if TimerSearch(cmd, 0).Some? {
      var k := TimerSearch(cmd, 0).value;
      assert TimerAt(cmd, k) == TimerMinutes(cmd);
    }
  }

  /** A split of the text after the prefix into digits and " minute" can only take the whole digit run. */
  lemma GreedyDigitsUnique(s: string, j: nat, k: nat)
    requires j + k <= |s| && 1 <= k
    requires forall m :: j <= m < j + k ==> Decimal.IsDigit(s[m])
    requires OccursAt(s, TimerSuffix, j + k)
    ensures k == DigitRun(s, j)
  {
    assert s[j + k] == ' ' by { assert s[j + k] == s[j + k..j + k + |TimerSuffix|][0]; }
  }

  // ---------------------------------------------------------------------
  // Task rule: the task text is the command with "add a task" cut out.
  // ---------------------------------------------------------------------

  const TaskPhrase: string := "add a task"
  const DefaultTask: string := "New Task"

  /** The task text: the command with its first "add a task" cut out and trimmed, or "New Task" when nothing is left. */
  function TaskText(cmd: string): (r: string)
    ensures r != []
  {
    var t := Trim(ReplaceFirst(cmd, TaskPhrase, ""));
    if t == [] then DefaultTask else t
  }

  /**
   The task text is what is left of the command once its leftmost "add a task"
   is cut out and the white space at both ends is trimmed; when nothing is
   left, it is "New Task".
   */
  lemma TaskTextSpec(cmd: string)
    requires Contains(cmd, TaskPhrase)
    ensures var i := IndexOf(cmd, TaskPhrase).value;
            var rest := cmd[..i] + cmd[i + |TaskPhrase|..];
            && (AllSpace(rest) ==> TaskText(cmd) == DefaultTask)
            && (!AllSpace(rest) ==> TaskText(cmd) == Trim(rest))
  {
    var i := IndexOf(cmd, TaskPhrase).value;
    var rest := ReplaceFirst(cmd, TaskPhrase, "");
    assert rest == cmd[..i] + cmd[i + |TaskPhrase|..];
    TrimEmpty(rest);
  }

  /** The task text is never padded: it neither starts nor ends with white space. */
  lemma TaskTextTrimmed(cmd: string)
    ensures !IsSpace(TaskText(cmd)[0]) && !IsSpace(TaskText(cmd)[|TaskText(cmd)| - 1])
  {
    var rest := ReplaceFirst(cmd, TaskPhrase, "");
    TrimSpec(rest);
    if Trim(rest) == [] {
      DefaultTaskUnpadded();
    }
  }

  lemma DefaultTaskUnpadded()
    ensures !IsSpace(DefaultTask[0]) && !IsSpace(DefaultTask[|DefaultTask| - 1])
  {
    VisibleNotSpace(DefaultTask[0]);
    VisibleNotSpace(DefaultTask[|DefaultTask| - 1]);
  }

  // ---------------------------------------------------------------------
  // The chain
  // ---------------------------------------------------------------------

  /** The rules in the order the chain tries them. */
  const Chain: seq<Rule> :=
    [WeatherRule, CalculatorRule, GpsRule, ClockRule, YouTubeRule, MusicRule, AskMoodRule,
     RecommendRule, NoteRule, TaskRule, TimerRule, NewsRule, QuoteRule, ClearRule]

  /** Every rule sits in the chain at its rank, so the chain tries each rule exactly once. */
  lemma ChainRank(rule: Rule)
    ensures Rank(rule) < |Chain| && Chain[Rank(rule)] == rule
  {
  }

  /** The index of the first rule of the chain, from index `i` on, that fires. */
  function FirstFiring(cmd: string, i: nat): (r: Option<nat>)
    requires i <= |Chain|
    ensures r.Some? ==> i <= r.value < |Chain| && Fires(Chain[r.value], cmd)
    ensures r.Some? ==> forall k :: i <= k < r.value ==> !Fires(Chain[k], cmd)
    ensures r.None? ==> forall k :: i <= k < |Chain| ==> !Fires(Chain[k], cmd)
    decreases |Chain| - i
  {
    if i == |Chain| then None
    else if Fires(Chain[i], cmd) then Some(i)
    else FirstFiring(cmd, i + 1)
  }

  /** The intent a firing rule produces, given the task text and the timer minutes taken from the command. */
  function IntentOf(rule: Rule, task: string, minutes: Option<nat>): (r: Intent)
    requires rule == TimerRule ==> minutes.Some?
    ensures !r.Unrecognized? && RuleOf(r) == rule
    ensures r.AddTask? ==> r.text == task
    ensures r.SetTimer? ==> minutes == Some(r.minutes)
  {
    match rule
    case WeatherRule => ShowWeather
    case CalculatorRule => ShowCalculator
    case GpsRule => ShowGps
    case ClockRule => ShowClock
    case YouTubeRule => ShowYouTube
    case MusicRule => PlayMusic
    case AskMoodRule => AskMood
    case RecommendRule => RecommendMusic
    case NoteRule => CreateNote
    case TaskRule => AddTask(task)
    case TimerRule => SetTimer(minutes.value)
    case NewsRule => ShowNews
    case QuoteRule => ShowQuote
    case ClearRule => ClearAll
  }

  /** The intent of a lower-cased transcript: the first rule of the chain that fires wins (see MatchSpec). */
  function Match(cmd: string): Intent {
    match FirstFiring(cmd, 0)
    case None => Unrecognized(cmd)
    case Some(i) => IntentOf(Chain[i], TaskText(cmd), TimerMinutes(cmd))
  }

  /**
   A transcript is unrecognised exactly when no rule fires, and is then kept
   verbatim; otherwise the intent comes from a rule that fires, no earlier
   rule fires, and the task text and timer minutes are the ones extracted
   from the transcript.
   */
  lemma MatchSpec(cmd: string)
    ensures Match(cmd).Unrecognized? <==> forall rule :: !Fires(rule, cmd)
    ensures Match(cmd).Unrecognized? ==> Match(cmd).command == cmd
    ensures !Match(cmd).Unrecognized? ==> Fires(RuleOf(Match(cmd)), cmd)
    ensures !Match(cmd).Unrecognized? ==> forall rule :: Rank(rule) < Rank(RuleOf(Match(cmd))) ==> !Fires(rule, cmd)
    ensures Match(cmd).AddTask? ==> Match(cmd).text == TaskText(cmd)
    ensures Match(cmd).SetTimer? ==> TimerMinutes(cmd) == Some(Match(cmd).minutes)
  {
    MatchFacts(cmd, FirstFiring(cmd, 0));
  }

  /** A rule that fires, when no earlier rule does, is the one the chain picks. */
  lemma Precedence(cmd: string, rule: Rule)
    requires Fires(rule, cmd)
    requires forall other :: Rank(other) < Rank(rule) ==> !Fires(other, cmd)
    ensures !Match(cmd).Unrecognized? && RuleOf(Match(cmd)) == rule
  {
    MatchSpec(cmd);
    var r := Match(cmd);
    ChainRank(rule);
    if !r.Unrecognized? {
      ChainRank(RuleOf(r));
    }
  }

  /** The task text and the timer minutes of the intent are the ones extracted from the command. */
  lemma MatchArguments(cmd: string)
    ensures Match(cmd).AddTask? ==> Match(cmd).text == TaskText(cmd)
    ensures Match(cmd).SetTimer? ==> TimerMinutes(cmd) == Some(Match(cmd).minutes)
  {
  }

  /** A rule that fires bounds the chain's pick: the command is recognised, by that rule or an earlier one. */
  lemma FiringBound(cmd: string, rule: Rule)
    requires Fires(rule, cmd)
    ensures !Match(cmd).Unrecognized? && Rank(RuleOf(Match(cmd))) <= Rank(rule)
  {
    MatchSpec(cmd);
  }

  /** The intent picked is produced by a rule that fires. */
  lemma MatchFires(cmd: string)
    requires !Match(cmd).Unrecognized?
    ensures Fires(RuleOf(Match(cmd)), cmd)
  {
    MatchSpec(cmd);
  }

  lemma MatchFacts(cmd: string, first: Option<nat>)
    requires first == FirstFiring(cmd, 0)
    ensures first.None? <==> forall rule :: !Fires(rule, cmd)
    ensures first.Some? ==> forall rule :: Rank(rule) < Rank(Chain[first.value]) ==> !Fires(rule, cmd)
  {
    if first.None? {
      forall rule ensures !Fires(rule, cmd) {
        ChainRank(rule);
      }
    } else {
      var i := first.value;
      ChainRank(Chain[i]);
      forall rule | Rank(rule) < Rank(Chain[i]) ensures !Fires(rule, cmd) {
        ChainRank(rule);
      }
    }
  }
}

=== FILE: matcher_laws.dfy ===
/**
 Consequences of the rule order and of the argument extraction of the
 command chain: which phrase is shadowed by which rule, and the commands
 that set a timer or add a task.
 */
module MatcherLaws {
  import opened Wrappers
  import opened Text
  import opened Matcher
  import Decimal

  /** A substring rule none of whose phrases occurs in the command does not fire. */
  lemma Misses(cmd: string, rule: Rule)
    requires rule != TimerRule
    requires forall k :: 0 <= k < |Phrases(rule)| ==> !Contains(cmd, Phrases(rule)[k])
    ensures !Fires(rule, cmd)
  {
    HitsPhraseSpec(cmd, Phrases(rule));
  }

  /**
   A substring rule does not fire on a command made of characters from
   `allowed` when each of its phrases has a character, `cs[k]`, outside it.
   */
  lemma MissesBy(cmd: string, rule: Rule, cs: seq<char>, allowed: set<char>)
    requires rule != TimerRule && |cs| == |Phrases(rule)|
    requires forall k :: 0 <= k < |cs| ==> cs[k] in Phrases(rule)[k] && cs[k] !in allowed
    requires forall c :: c in cmd ==> c in allowed
    ensures !Fires(rule, cmd)
  {
    forall k | 0 <= k < |cs| ensures !Contains(cmd, Phrases(rule)[k]) {
      MissingChar(cmd, Phrases(rule)[k], cs[k]);
    }
    Misses(cmd, rule);
  }

  /** A substring rule fires as soon as one of its phrases occurs in the command. */
  lemma Hits(cmd: string, rule: Rule, k: nat)
    requires rule != TimerRule && k < |Phrases(rule)| && Contains(cmd, Phrases(rule)[k])
    ensures Fires(rule, cmd)
  {
    HitsPhraseSpec(cmd, Phrases(rule));
  }

  /**
   "play music for my mood" is one of the recommendation phrases, but it
   contains "play music", so a command saying it is always taken by the
   music rule or by an earlier one, and never yields RecommendMusic.
   */
  lemma MoodPhraseShadowed(cmd: string)
    requires Contains(cmd, "play music for my mood")
    ensures !Match(cmd).Unrecognized? && Rank(RuleOf(Match(cmd))) <= Rank(MusicRule)
    ensures Match(cmd) != RecommendMusic
  {
    MoodPhraseFiresMusic(cmd);
    MusicShadowsRecommend(cmd);
  }

  /** Whenever the music rule fires, the chain stops at it or earlier and so never reaches the recommendation rule. */
  lemma MusicShadowsRecommend(cmd: string)
    requires Fires(MusicRule, cmd)
    ensures !Match(cmd).Unrecognized? && Rank(RuleOf(Match(cmd))) <= Rank(MusicRule)
    ensures Match(cmd) != RecommendMusic
  {
    FiringBound(cmd, MusicRule);
    BeforeRecommend(Match(cmd));
  }

  /** An intent of a rule up to the music rule is not the recommendation. */
  lemma BeforeRecommend(m: Intent)
    requires !m.Unrecognized? && Rank(RuleOf(m)) <= Rank(MusicRule)
    ensures m != RecommendMusic
  {
  }

  /** The music rule fires on any command holding "play music for my mood". */
  lemma MoodPhraseFiresMusic(cmd: string)
    requires Contains(cmd, "play music for my mood")
    ensures Fires(MusicRule, cmd)
  {
    OccursContains("play music for my mood", "play music", 0);
    ContainsTransitive(cmd, "play music for my mood", "play music");
    Hits(cmd, MusicRule, 0);
  }

  /** A substring rule that fires has one of its phrases in the command. */
  lemma HitOf(cmd: string, rule: Rule) returns (k: nat)
    requires rule != TimerRule && Fires(rule, cmd)
    ensures k < |Phrases(rule)| && Contains(cmd, Phrases(rule)[k])
  {
    HitsPhraseSpec(cmd, Phrases(rule));
    k :| 0 <= k < |Phrases(rule)| && Contains(cmd, Phrases(rule)[k]);
  }

  /** So the recommendation intent is only ever reached through "recommend music". */
  lemma RecommendNeedsPhrase(cmd: string)
    requires Match(cmd) == RecommendMusic
    ensures Contains(cmd, "recommend music")
  {
    assert Fires(RecommendRule, cmd) by { MatchFires(cmd); }
    assert !Contains(cmd, "play music for my mood") by {
      if Contains(cmd, "play music for my mood") {
        MoodPhraseShadowed(cmd);
      }
    }
    RecommendHit(cmd);
  }

  /** The recommendation rule fires on a command without its second phrase only through its first. */
  lemma RecommendHit(cmd: string)
    requires Fires(RecommendRule, cmd) && !Contains(cmd, "play music for my mood")
    ensures Contains(cmd, "recommend music")
  {
    var k := HitOf(cmd, RecommendRule);
    assert Phrases(RecommendRule) == ["recommend music", "play music for my mood"];
  }

  /** The characters of "set a timer for N minutes": the letters of its words, the space and the digits. */
  const TimerChars: set<char> :=
    {' ', 'a', 'e', 'f', 'i', 'm', 'n', 'o', 'r', 's', 't', 'u',
     '0', '1', '2', '3', '4', '5', '6', '7', '8', '9'}

  /** A string of digits is made of characters of TimerChars. */
  lemma DigitChars(d: string)
    requires Decimal.AllDigits(d)
    ensures forall c :: c in d ==> c in TimerChars
  {
    forall c | c in d ensures c in TimerChars {
      var k :| 0 <= k < |d| && d[k] == c;
      assert Decimal.IsDigit(d[k]);
    }
  }

  /** The timer regular expression reads back the digits spoken after "set a timer for ", leading zeros and all, as `parseInt` does. */
  lemma TimerReadsDigits(d: string, tail: string)
    requires d != [] && Decimal.AllDigits(d)
    ensures TimerMinutes(TimerPrefix + d + TimerSuffix + tail) == Some(Decimal.Value(d))
  {
    var cmd := TimerPrefix + d + TimerSuffix + tail;
    var j := |TimerPrefix|;
    var m := |d|;
    assert cmd[..j] == TimerPrefix;
    assert cmd[j..j + m] == d;
    assert cmd[j + m..j + m + |TimerSuffix|] == TimerSuffix;
    GreedyDigitsUnique(cmd, j, m);
  }

  /** A command made of characters of TimerChars fires none of the rules tried before the timer. */
  lemma SilentBeforeTimer(cmd: string)
    requires forall c :: c in cmd ==> c in TimerChars
    ensures forall rule :: Rank(rule) < Rank(TimerRule) ==> !Fires(rule, cmd)
  {
    forall rule | Rank(rule) < Rank(TimerRule) ensures !Fires(rule, cmd) {
      if Rank(rule) < Rank(MusicRule) {
        SilentDisplayRule(cmd, rule);
      } else {
        SilentActionRule(cmd, rule);
      }
    }
  }

  /** The weather, calculator, location, clock and video rules, on characters of TimerChars. */
  lemma SilentDisplayRule(cmd: string, rule: Rule)
    requires forall c :: c in cmd ==> c in TimerChars
    requires Rank(rule) < Rank(MusicRule)
    ensures !Fires(rule, cmd)
  {
    match rule
    case WeatherRule => MissesBy(cmd, rule, "hw", TimerChars);
    case CalculatorRule => MissesBy(cmd, rule, "hc", TimerChars);
    case GpsRule => MissesBy(cmd, rule, "hgl", TimerChars);
    case ClockRule => MissesBy(cmd, rule, "hl", TimerChars);
    case YouTubeRule => MissesBy(cmd, rule, "hy", TimerChars);
  }

  /** The music, mood, recommendation, note and task rules, on characters of TimerChars. */
  lemma SilentActionRule(cmd: string, rule: Rule)
    requires forall c :: c in cmd ==> c in TimerChars
    requires Rank(MusicRule) <= Rank(rule) < Rank(TimerRule)
    ensures !Fires(rule, cmd)
  {
    match rule
    case MusicRule => MissesBy(cmd, rule, "pb", TimerChars);
    case AskMoodRule => MissesBy(cmd, rule, "ydh", TimerChars);
    case RecommendRule => MissesBy(cmd, rule, "cp", TimerChars);
    case NoteRule => MissesBy(cmd, rule, "c", TimerChars);
    case TaskRule => MissesBy(cmd, rule, "d", TimerChars);
  }

  /** Saying "set a timer for D minutes", D a run of digits, sets a timer for D minutes: no earlier rule can fire on it. */
  lemma TimerSpoken(d: string)
    requires d != [] && Decimal.AllDigits(d)
    ensures Match(TimerPrefix + d + " minutes") == SetTimer(Decimal.Value(d))
  {
    var cmd := TimerPrefix + d + " minutes";
    assert TimerMinutes(cmd) == Some(Decimal.Value(d)) by {
      assert cmd == TimerPrefix + d + TimerSuffix + "s";
      TimerReadsDigits(d, "s");
    }
    assert forall rule :: Rank(rule) < Rank(TimerRule) ==> !Fires(rule, cmd) by {
      TimerCommandChars(d);
      SilentBeforeTimer(cmd);
    }
    TimerWins(cmd, Decimal.Value(d));
  }

  /** In particular the page's own wording of an N-minute timer, with N printed by `toString`, sets an N-minute timer. */
  lemma TimerCommand(n: nat)
    ensures Match(TimerPrefix + Decimal.Show(n) + " minutes") == SetTimer(n)
  {
    TimerSpoken(Decimal.Show(n));
  }

  /** "set a timer for D minutes" is written in characters of TimerChars. */
  lemma TimerCommandChars(d: string)
    requires Decimal.AllDigits(d)
    ensures forall c :: c in TimerPrefix + d + " minutes" ==> c in TimerChars
  {
    DigitChars(d);
  }

  /** A command the timer rule reads `n` from, with no earlier rule firing, sets an `n`-minute timer. */
  lemma TimerWins(cmd: string, n: nat)
    requires TimerMinutes(cmd) == Some(n)
    requires forall rule :: Rank(rule) < Rank(TimerRule) ==> !Fires(rule, cmd)
    ensures Match(cmd) == SetTimer(n)
  {
    Precedence(cmd, TimerRule);
    MatchArguments(cmd);
    TimerIntent(Match(cmd), n);
  }

  /** The only intent of the timer rule that carries `n` minutes is SetTimer(n). */
  lemma TimerIntent(m: Intent, n: nat)
    requires !m.Unrecognized? && RuleOf(m) == TimerRule
    requires m.SetTimer? ==> m.minutes == n
    ensures m == SetTimer(n)
  {
  }

  /** Cutting "add a task" out of a command that starts with it leaves the rest. */
  lemma CutTaskPhrase(rest: string)
    ensures ReplaceFirst(TaskPhrase + rest, TaskPhrase, "") == rest
  {
    var cmd := TaskPhrase + rest;
    assert cmd[..|TaskPhrase|] == TaskPhrase;
    OccursContains(cmd, TaskPhrase, 0);
    assert cmd[|TaskPhrase|..] == rest;
  }

  /**
   "add a task" followed by white space and a task text that neither starts
   nor ends with white space yields exactly that text.
   */
  lemma TaskReadsText(sp: string, t: string)
    requires AllSpace(sp)
    requires t != [] && !IsSpace(t[0]) && !IsSpace(t[|t| - 1])
    ensures TaskText(TaskPhrase + (sp + t)) == t
  {
    CutTaskPhrase(sp + t);
    TrimPadded(sp, t);
  }

  /** "add a task" with nothing after it adds a task called "New Task". */
  lemma TaskDefault(sp: string)
    requires AllSpace(sp)
    ensures TaskText(TaskPhrase + sp) == DefaultTask
  {
    CutTaskPhrase(sp);
    TrimEmpty(sp);
  }

  /** A transcript without a digit never sets a timer: numbers spoken as words are not understood. */
  lemma NoDigitNoTimer(cmd: string)
    requires forall k :: 0 <= k < |cmd| ==> !Decimal.IsDigit(cmd[k])
    ensures TimerMinutes(cmd) == None
    ensures !Match(cmd).SetTimer?
  {
    forall k: nat ensures TimerAt(cmd, k).None? {
      var j := k + |TimerPrefix|;
      if j < |cmd| {
        assert !Decimal.IsDigit(cmd[j]);
      }
    }
    TimerMinutesSpec(cmd);
    MatchSpec(cmd);
  }
}

=== FILE: mood.dfy ===
/**
 The two mood classifiers and the playlist each mood selects.

 The notes classifier lower-cases the notes, joins them with spaces, cuts
 the text into the maximal runs of `[a-z0-9]`, counts for every mood the
 tokens that equal one of its keywords, and picks the mood with the highest
 count, ties going to happy, then calm, then sad, then angry.

 The utterance classifier looks for the mood keywords as substrings of the
 spoken answer and takes the first mood, in the order happy, sad, calm,
 angry, one of whose keywords occurs.
 */
module Mood {
  import opened Text

  datatype Mood = Happy | Sad | Angry | Calm | Neutral

  // ---------------------------------------------------------------------
  // Tokens: the maximal runs of small ASCII letters and digits
  // ---------------------------------------------------------------------

  predicate IsWordChar(c: char) {
    'a' <= c <= 'z' || '0' <= c <= '9'
  }

  /** A token: a non-empty run of word characters. */
  predicate IsWord(w: string) {
    w != [] && forall k :: 0 <= k < |w| ==> IsWordChar(w[k])
  }

  /** The length of the run of word characters at the front of `s`. */
  function WordRun(s: string): (n: nat)
    ensures n <= |s|
    ensures forall k :: 0 <= k < n ==> IsWordChar(s[k])
    ensures n == |s| || !IsWordChar(s[n])
  {
    if s != [] && IsWordChar(s[0]) then 1 + WordRun(s[1..]) else 0
  }

  /** The maximal runs of word characters of `s`, from left to right. */
  function Tokens(s: string): (r: seq<string>)
    ensures forall k :: 0 <= k < |r| ==> IsWord(r[k])
    decreases |s|
  {
    if s == [] then []
    else if !IsWordChar(s[0]) then Tokens(s[1..])
    else
      var n := WordRun(s);
      [s[..n]] + Tokens(s[n..])
  }

  /** A separator stops the run of word characters in front of it. */
  lemma {:induction false} WordRunStops(a: string, sep: char, b: string)
    requires !IsWordChar(sep)
    ensures WordRun(a + [sep] + b) == WordRun(a)
    decreases |a|
  {
    if a == [] {
      assert (a + [sep] + b)[0] == sep;
    } else {
      assert (a + [sep] + b)[0] == a[0];
      if IsWordChar(a[0]) {
        assert (a + [sep] + b)[1..] == a[1..] + [sep] + b;
        WordRunStops(a[1..], sep, b);
      }
    }
  }

  /** Text on the two sides of a separator is cut into tokens independently. */
  lemma {:induction false} TokensSplit(a: string, sep: char, b: string)
    requires !IsWordChar(sep)
    ensures Tokens(a + [sep] + b) == Tokens(a) + Tokens(b)
    decreases |a|
  {
    var s := a + [sep] + b;
    if a == [] {
      assert s[0] == sep && s[1..] == b;
    } else if !IsWordChar(a[0]) {
      assert s[0] == a[0] && s[1..] == a[1..] + [sep] + b;
      TokensSplit(a[1..], sep, b);
    } else {
      assert s[0] == a[0];
      var n := WordRun(a);
      WordRunStops(a, sep, b);
      assert s[..n] == a[..n];
      assert s[n..] == a[n..] + [sep] + b;
      TokensSplit(a[n..], sep, b);
    }
  }

  /** A single word is its own only token. */
  lemma {:induction false} TokensWord(w: string)
    requires IsWord(w)
    ensures Tokens(w) == [w]
  {
    WordRunAll(w);
    assert w[..|w|] == w && w[|w|..] == [];
  }

  /** The run of word characters in front of a word is the whole word. */
  lemma {:induction false} WordRunAll(w: string)
    requires forall k :: 0 <= k < |w| ==> IsWordChar(w[k])
    ensures WordRun(w) == |w|
    decreases |w|
  {
    if w != [] {
      WordRunAll(w[1..]);
    }
  }

  /** Joining words with spaces and cutting the text into tokens gives the words back. */
  lemma {:induction false} TokensOfJoin(ws: seq<string>)
    requires forall k :: 0 <= k < |ws| ==> IsWord(ws[k])
    ensures Tokens(Join(ws, " ")) == ws
    decreases |ws|
  {
    if |ws| == 1 {
      TokensWord(ws[0]);
    } else if |ws| > 1 {
      TokensOfJoin(ws[1..]);
      TokensWord(ws[0]);
      assert Join(ws, " ") == ws[0] + [' '] + Join(ws[1..], " ");
      TokensSplit(ws[0], ' ', Join(ws[1..], " "));
      assert ws == [ws[0]] + ws[1..];
    }
  }

  // ---------------------------------------------------------------------
  // Keyword counts
  // ---------------------------------------------------------------------

  const HappyWords: seq<string> :=
    ["happy", "joy", "excited", "glad", "great", "wonderful", "delighted", "pleased", "cheerful", "elated"]
  const SadWords: seq<string> :=
    ["sad", "unhappy", "depressed", "down", "lonely", "miserable", "tear", "sorrow", "tired", "blue", "gloom"]
  const AngryWords: seq<string> :=
    ["angry", "mad", "furious", "annoyed", "irritated", "frustrated", "rage", "resentful"]
  const CalmWords: seq<string> :=
    ["calm", "relax", "peace", "tranquil", "serene", "chill", "rested"]

  /** The keywords the notes classifier counts for a mood; neutral has none. */
  function Keywords(m: Mood): seq<string> {
    match m
    case Happy => HappyWords
    case Sad => SadWords
    case Angry => AngryWords
    case Calm => CalmWords
    case Neutral => []
  }

  /** The number of tokens that equal one of the words. */
  function Score(tokens: seq<string>, words: seq<string>): (n: nat)
    ensures n <= |tokens|
    ensures n == 0 <==> forall k :: 0 <= k < |tokens| ==> tokens[k] !in words
  {
    if tokens == [] then 0
    else (if tokens[0] in words then 1 else 0) + Score(tokens[1..], words)
  }

  /** Counting is additive over a concatenation of token lists. */
  lemma {:induction false} ScoreConcat(a: seq<string>, b: seq<string>, words: seq<string>)
    ensures Score(a + b, words) == Score(a, words) + Score(b, words)
    decreases |a|
  {
    if a != [] {
      assert (a + b)[0] == a[0] && (a + b)[1..] == a[1..] + b;
      ScoreConcat(a[1..], b, words);
    } else {
      assert a + b == b;
    }
  }

  /** A list in which exactly one token, the one at `i`, is among the words scores 1. */
  lemma {:induction false} ScoreOne(tokens: seq<string>, words: seq<string>, i: nat)
    requires i < |tokens| && tokens[i] in words
    requires forall k :: 0 <= k < |tokens| && k != i ==> tokens[k] !in words
    ensures Score(tokens, words) == 1
    decreases |tokens|
  {
    if i > 0 {
      assert tokens[0] !in words;
      ScoreOne(tokens[1..], words, i - 1);
    } else {
      assert forall k :: 0 <= k < |tokens[1..]| ==> tokens[1..][k] == tokens[k + 1];
    }
  }

  /** The four keyword counts, `counts` in the source. */
  datatype Counts = Counts(happy: nat, sad: nat, angry: nat, calm: nat)

  function CountOf(counts: Counts, m: Mood): nat {
    match m
    case Happy => counts.happy
    case Sad => counts.sad
    case Angry => counts.angry
    case Calm => counts.calm
    case Neutral => 0
  }

  function Total(counts: Counts): nat {
    counts.happy + counts.sad + counts.angry + counts.calm
  }

  function CountsOf(tokens: seq<string>): (c: Counts)
    ensures forall m :: CountOf(c, m) == Score(tokens, Keywords(m))
  {
    Counts(Score(tokens, HappyWords), Score(tokens, SadWords), Score(tokens, AngryWords), Score(tokens, CalmWords))
  }

  /** Counts add up over a concatenation of token lists. */
  lemma CountsConcat(a: seq<string>, b: seq<string>)
    ensures var (x, y, z) := (CountsOf(a), CountsOf(b), CountsOf(a + b));
            z == Counts(x.happy + y.happy, x.sad + y.sad, x.angry + y.angry, x.calm + y.calm)
  {
    ScoreConcat(a, b, HappyWords);
    ScoreConcat(a, b, SadWords);
    ScoreConcat(a, b, AngryWords);
    ScoreConcat(a, b, CalmWords);
  }

  // ---------------------------------------------------------------------
  // The decision
  // ---------------------------------------------------------------------

  /** The position of a mood in the tie-break order happy, calm, sad, angry; neutral is not in the order, so its position is -1 as for a missing element. */
  function PriorityIndex(m: Mood): int {
    match m
    case Happy => 0
    case Calm => 1
    case Sad => 2
    case Angry => 3
    case Neutral => -1
  }

  /** The best mood so far and its score. */
  datatype Leader = Leader(best: Mood, score: nat)

  /** One turn of the loop over the moods: a higher count takes over, an equal positive one wins on priority. */
  function Step(l: Leader, m: Mood, count: nat): Leader {
    if count > l.score then Leader(m, count)
    else if count == l.score && count > 0 && PriorityIndex(m) < PriorityIndex(l.best) then Leader(m, l.score)
    else l
  }

  /** The mood the source returns for the counts: neutral with no match, else the loop over happy, sad, angry, calm. */
  function Decide(counts: Counts): Mood {
    if Total(counts) == 0 then Neutral
    else
      var l1 := Step(Leader(Neutral, 0), Happy, counts.happy);
      var l2 := Step(l1, Sad, counts.sad);
      var l3 := Step(l2, Angry, counts.angry);
      var l4 := Step(l3, Calm, counts.calm);
      l4.best
  }

  /**
   The decision is neutral exactly when no token matched; otherwise it is a
   mood with the highest count, and among the moods sharing that count it is
   the first in the order happy, calm, sad, angry.
   */
  lemma DecideSpec(counts: Counts)
    ensures Decide(counts) == Neutral <==> Total(counts) == 0
    ensures Decide(counts) != Neutral ==>
              forall m :: CountOf(counts, m) <= CountOf(counts, Decide(counts))
    ensures Decide(counts) != Neutral ==>
              forall m :: m != Neutral && CountOf(counts, m) == CountOf(counts, Decide(counts)) ==>
                PriorityIndex(Decide(counts)) <= PriorityIndex(m)
  {
  }

  /** The classifier on an already lower-cased text. */
  function TextMood(text: string): Mood {
    Decide(CountsOf(Tokens(text)))
  }

  /** The lower-cased note texts joined by single spaces. */
  function NotesText(notes: seq<string>): string {
    Join(seq(|notes|, k requires 0 <= k < |notes| => Lower(notes[k])), " ")
  }

  /** `detectMoodFromNotes`: the mood of the notes. */
  function NotesMood(notes: seq<string>): Mood {
    TextMood(NotesText(notes))
  }

  /** The notes the page defines at start-up when it has none. */
  const SampleNotes: seq<string> := ["I feel very happy today", "Completed a big milestone at work"]

  /** Every keyword of the notes classifier. */
  const AllKeywords: seq<string> := HappyWords + SadWords + AngryWords + CalmWords

  /** No keyword is counted exactly when no token is a keyword. */
  lemma NoCountIffNoKeyword(tokens: seq<string>)
    ensures Total(CountsOf(tokens)) == 0 <==> forall k :: 0 <= k < |tokens| ==> tokens[k] !in AllKeywords
  {
    var c := CountsOf(tokens);
    assert c.happy == Score(tokens, HappyWords) && c.sad == Score(tokens, SadWords);
    assert c.angry == Score(tokens, AngryWords) && c.calm == Score(tokens, CalmWords);
  }

  /** A text is neutral exactly when none of its tokens is a keyword of any mood. */
  lemma NeutralIffNoKeyword(text: string)
    ensures TextMood(text) == Neutral <==>
              forall k :: 0 <= k < |Tokens(text)| ==> Tokens(text)[k] !in AllKeywords
  {
    DecideSpec(CountsOf(Tokens(text)));
    NoCountIffNoKeyword(Tokens(text));
  }

  // ---------------------------------------------------------------------
  // The utterance classifier of askMood
  // ---------------------------------------------------------------------

  const HappyCues: seq<string> := ["happy", "joyful", "excited", "great"]
  const SadCues: seq<string> := ["sad", "unhappy", "down", "depressed"]
  const CalmCues: seq<string> := ["calm", "relaxed", "peaceful", "chill"]
  const AngryCues: seq<string> := ["angry", "mad", "furious", "frustrated"]

  /** The words `moodMap` lists for a mood. */
  function Cues(m: Mood): seq<string> {
    match m
    case Happy => HappyCues
    case Sad => SadCues
    case Calm => CalmCues
    case Angry => AngryCues
    case Neutral => []
  }

  /** The order in which `moodMap` is searched. */
  function CueOrder(m: Mood): nat {
    match m
    case Happy => 0
    case Sad => 1
    case Calm => 2
    case Angry => 3
    case Neutral => 4
  }

  /** Some cue word of the mood occurs in the transcript as a substring. */
  predicate Mentions(transcript: string, m: Mood) {
    exists k :: 0 <= k < |Cues(m)| && Contains(transcript, Cues(m)[k])
  }

  /** The first mood of the search that the transcript mentions, or neutral. */
  function UtteranceMood(transcript: string): (r: Mood)
    ensures r != Neutral ==> Mentions(transcript, r)
    ensures forall m :: CueOrder(m) < CueOrder(r) ==> !Mentions(transcript, m)
  {
    if Mentions(transcript, Happy) then Happy
    else if Mentions(transcript, Sad) then Sad
    else if Mentions(transcript, Calm) then Calm
    else if Mentions(transcript, Angry) then Angry
    else Neutral
  }

  // ---------------------------------------------------------------------
  // playMoodMusic
  // ---------------------------------------------------------------------

  const TopHits: string := "37i9dQZF1DXcBWIGoYBM5M"

  /** The Spotify playlist id `playMoodMusic` embeds for a mood; any other mood gets today's top hits. */
  function Playlist(m: Mood): string {
    match m
    case Happy => "37i9dQZF1DXdPec7aLTmlC"
    case Sad => "37i9dQZF1DX7qK8ma5wgG1"
    case Angry => "37i9dQZF1DWYxwmBaMqxsl"
    case Calm => "37i9dQZF1DWU0ScTcjJBdj"
    case Neutral => TopHits
  }

  /** Every mood has its own playlist, so the playlist shown tells the mood detected. */
  lemma PlaylistInjective(m1: Mood, m2: Mood)
    ensures Playlist(m1) == Playlist(m2) <==> m1 == m2
  {
    if m1 != m2 {
      assert Playlist(m1)[11] != Playlist(m2)[11];
    }
  }
}

=== FILE: mood_examples.dfy ===
/**
 The two mood classifiers on concrete inputs: they disagree on "sad but
 calm" and on "unhappy", and the sample notes the dashboard starts with
 read as happy.
 */
module MoodExamples {
  import opened Text
  import opened Mood

  // ---------------------------------------------------------------------
  // "sad but calm": sad when spoken, calm in the notes
  // ---------------------------------------------------------------------

  /**
   A transcript that lacks the letters h, j, x and g names none of the happy
   cues, so it is sad as soon as it contains "sad".
   */
  lemma SpokenSad(t: string)
    requires 'h' !in t && 'j' !in t && 'x' !in t && 'g' !in t
    requires Contains(t, "sad")
    ensures UtteranceMood(t) == Sad
  {
    MissingChar(t, "happy", 'h');
    MissingChar(t, "joyful", 'j');
    MissingChar(t, "excited", 'x');
    MissingChar(t, "great", 'g');
    assert Cues(Happy) == ["happy", "joyful", "excited", "great"];
    assert Cues(Sad)[0] == "sad";
  }

  /** Spoken, "sad but calm" names no happy cue, and "sad" is the first sad cue. */
  lemma SadButCalmSpoken()
    ensures UtteranceMood("sad but calm") == Sad
  {
    OccursContains("sad but calm", "sad", 0);
    SpokenSad("sad but calm");
  }

  lemma SadButCalmTokens()
    ensures Tokens("sad but calm") == ["sad", "but", "calm"]
  {
    assert Join(["sad", "but", "calm"], " ") == "sad but calm";
    TokensOfJoin(["sad", "but", "calm"]);
  }

  lemma SadButCalmHappy() ensures Score(["sad", "but", "calm"], HappyWords) == 0 {}
  lemma SadButCalmSad() ensures Score(["sad", "but", "calm"], SadWords) == 1 {}
  lemma SadButCalmAngry() ensures Score(["sad", "but", "calm"], AngryWords) == 0 {}
  lemma SadButCalmCalm() ensures Score(["sad", "but", "calm"], CalmWords) == 1 {}

  /** In a note, "sad" and "calm" count one each, and the tie goes to calm. */
  lemma SadButCalmNoted()
    ensures NotesMood(["sad but calm"]) == Calm
  {
    assert NotesText(["sad but calm"]) == Lower("sad but calm");
    assert Lower("sad but calm") == "sad but calm";
    SadButCalmTokens();
    SadButCalmHappy();
    SadButCalmSad();
    SadButCalmAngry();
    SadButCalmCalm();
    assert CountsOf(["sad", "but", "calm"]) == Counts(0, 1, 0, 1);
  }

  // ---------------------------------------------------------------------
  // "unhappy": happy when spoken, sad in the notes
  // ---------------------------------------------------------------------

  /** Spoken, "unhappy" contains the happy cue "happy". */
  lemma UnhappySpoken()
    ensures UtteranceMood("unhappy") == Happy
  {
    OccursContains("unhappy", "happy", 2);
    assert Cues(Happy)[0] == "happy";
  }

  lemma UnhappyCounts() ensures CountsOf(["unhappy"]) == Counts(0, 1, 0, 0) {}

  /** In a note, "unhappy" is one whole token, and it is a sad keyword only. */
  lemma UnhappyNoted()
    ensures NotesMood(["unhappy"]) == Sad
  {
    assert NotesText(["unhappy"]) == Lower("unhappy");
    assert Lower("unhappy") == "unhappy";
    TokensWord("unhappy");
    UnhappyCounts();
  }

  // ---------------------------------------------------------------------
  // The sample notes
  // ---------------------------------------------------------------------

  const FirstWords: seq<string> := ["i", "feel", "very", "happy", "today"]
  const SecondWords: seq<string> := ["completed", "a", "big", "milestone", "at", "work"]

  lemma FirstNoteLower() ensures Lower(SampleNotes[0]) == "i feel very happy today" {}
  lemma SecondNoteLower() ensures Lower(SampleNotes[1]) == "completed a big milestone at work" {}
  lemma FirstNoteWords() ensures Join(FirstWords, " ") == "i feel very happy today" {}
  lemma SecondNoteWords() ensures Join(SecondWords, " ") == "completed a big milestone at work" {}

  lemma FirstNoteTokens()
    ensures Tokens(Lower(SampleNotes[0])) == FirstWords
  {
    FirstNoteLower();
    FirstNoteWords();
    assert forall k :: 0 <= k < |FirstWords| ==> IsWord(FirstWords[k]);
    TokensOfJoin(FirstWords);
  }

  lemma SecondNoteTokens()
    ensures Tokens(Lower(SampleNotes[1])) == SecondWords
  {
    SecondNoteLower();
    SecondNoteWords();
    assert forall k :: 0 <= k < |SecondWords| ==> IsWord(SecondWords[k]);
    TokensOfJoin(SecondWords);
  }

  /** The notes text is the two lower-cased notes around one space, so its tokens are theirs. */
  lemma SampleTokens()
    ensures Tokens(NotesText(SampleNotes)) == FirstWords + SecondWords
  {
    assert NotesText(SampleNotes) == Lower(SampleNotes[0]) + " " + Lower(SampleNotes[1]);
    FirstNoteTokens();
    SecondNoteTokens();
    TokensSplit(Lower(SampleNotes[0]), ' ', Lower(SampleNotes[1]));
  }

  lemma FirstWordsKeywords()
    ensures forall k :: 0 <= k < |FirstWords| && k != 3 ==> FirstWords[k] !in AllKeywords
    ensures FirstWords[3] in HappyWords && FirstWords[3] !in SadWords + AngryWords + CalmWords
  {
  }

  lemma SecondWordsKeywords()
    ensures forall k :: 0 <= k < |SecondWords| ==> SecondWords[k] !in AllKeywords
  {
  }

  /** A token list whose only keyword is one happy keyword counts one happy token and nothing else. */
  lemma OneHappyToken(tokens: seq<string>, i: nat)
    requires i < |tokens| && tokens[i] in HappyWords && tokens[i] !in SadWords + AngryWords + CalmWords
    requires forall k :: 0 <= k < |tokens| && k != i ==> tokens[k] !in AllKeywords
    ensures CountsOf(tokens) == Counts(1, 0, 0, 0)
  {
    ScoreOne(tokens, HappyWords, i);
    NoneOf(tokens, SadWords);
    NoneOf(tokens, AngryWords);
    NoneOf(tokens, CalmWords);
  }

  lemma NoneOf(tokens: seq<string>, words: seq<string>)
    requires forall k :: 0 <= k < |tokens| ==> tokens[k] !in words
    ensures Score(tokens, words) == 0
  {
  }

  /** Only the fourth token, "happy", of the first note is a keyword. */
  lemma FirstScores()
    ensures CountsOf(FirstWords) == Counts(1, 0, 0, 0)
  {
    FirstWordsKeywords();
    OneHappyToken(FirstWords, 3);
  }

  /** No token of the second note is a keyword. */
  lemma SecondScores()
    ensures CountsOf(SecondWords) == Counts(0, 0, 0, 0)
  {
    SecondWordsKeywords();
    NoCountIffNoKeyword(SecondWords);
  }

  /** The sample notes read as happy. */
  lemma SampleNotesHappy()
    ensures NotesMood(SampleNotes) == Happy
  {
    SampleTokens();
    FirstScores();
    SecondScores();
    CountsConcat(FirstWords, SecondWords);
  }
}

=== FILE: session.dfy ===
/**
 The dashboard's in-memory state and the events that change it: the cards
 on the page, the three counters, the chat history, the registry of
 running timers, the task check boxes, the notes the mood of which is
 read, the playlist in the music card, and the calculator entry.

 A voice command is lower-cased and handed to the matcher; the intent it
 yields is dispatched to the function the page calls for it. The answer
 to the mood question is classified by the utterance classifier; the
 music recommendation reads the notes. Ids built from `Date.now()` take
 the clock reading as a parameter, and the history's time and date
 strings are given.
 */
module Session {
  import opened Wrappers
  import opened Text
  import opened History
  import Decimal
  import Matcher
  import Mood
  import Countdown
  import Calculator

  // ---------------------------------------------------------------------
  // Card ids
  // ---------------------------------------------------------------------

  const WeatherCard: string := "weather-card"
  const CalculatorCard: string := "calculator-card"
  const GpsCard: string := "gps-card"
  const ClockCard: string := "clock-card"
  const NewsCard: string := "news-card"
  const QuoteCard: string := "quote-card"

  const NoteTag: string := "note-"
  const TaskTag: string := "task-"
  const TimerTag: string := "timer-"

  /** `note-${Date.now()}`, and likewise for tasks and timers. */
  function NoteId(stamp: nat): string { NoteTag + Decimal.Show(stamp) }
  function TaskId(stamp: nat): string { TaskTag + Decimal.Show(stamp) }
  function TimerId(stamp: nat): string { TimerTag + Decimal.Show(stamp) }

  /** A tag followed by digits contains none of the characters the digits lack and the tag lacks. */
  lemma TaggedLacks(tag: string, stamp: nat, c: char)
    requires c !in tag && !('0' <= c <= '9')
    ensures c !in tag + Decimal.Show(stamp)
  {
    var digits := Decimal.Show(stamp);
    forall k | 0 <= k < |digits| ensures digits[k] != c {
      assert Decimal.IsDigit(digits[k]);
    }
  }

  /** A note id contains the note tag and neither of the other two. */
  lemma NoteIdTags(stamp: nat)
    ensures Contains(NoteId(stamp), NoteTag) && !Contains(NoteId(stamp), TaskTag) && !Contains(NoteId(stamp), TimerTag)
  {
    assert NoteId(stamp)[..|NoteTag|] == NoteTag;
    OccursContains(NoteId(stamp), NoteTag, 0);
    TaggedLacks(NoteTag, stamp, 'k');
    MissingChar(NoteId(stamp), TaskTag, 'k');
    TaggedLacks(NoteTag, stamp, 'i');
    MissingChar(NoteId(stamp), TimerTag, 'i');
  }

  /** A task id contains the task tag and neither of the other two. */
  lemma TaskIdTags(stamp: nat)
    ensures Contains(TaskId(stamp), TaskTag) && !Contains(TaskId(stamp), NoteTag) && !Contains(TaskId(stamp), TimerTag)
  {
    assert TaskId(stamp)[..|TaskTag|] == TaskTag;
    OccursContains(TaskId(stamp), TaskTag, 0);
    TaggedLacks(TaskTag, stamp, 'o');
    MissingChar(TaskId(stamp), NoteTag, 'o');
    TaggedLacks(TaskTag, stamp, 'i');
    MissingChar(TaskId(stamp), TimerTag, 'i');
  }

  /** A timer id contains the timer tag and neither of the other two. */
  lemma TimerIdTags(stamp: nat)
    ensures Contains(TimerId(stamp), TimerTag) && !Contains(TimerId(stamp), NoteTag) && !Contains(TimerId(stamp), TaskTag)
  {
    assert TimerId(stamp)[..|TimerTag|] == TimerTag;
    OccursContains(TimerId(stamp), TimerTag, 0);
    TaggedLacks(TimerTag, stamp, 'n');
    MissingChar(TimerId(stamp), NoteTag, 'n');
    TaggedLacks(TimerTag, stamp, 'k');
    MissingChar(TimerId(stamp), TaskTag, 'k');
  }

  // ---------------------------------------------------------------------
  // The state
  // ---------------------------------------------------------------------

  datatype Session = Session(
    cards: seq<string>,                      // ids of the cards on the page, oldest first
    commandCount: nat,
    notesCount: nat,
    tasksCount: nat,
    history: seq<Entry>,                     // chatHistory
    timers: map<string, Countdown.Timer>,    // activeTimers, with the state of each interval
    boxes: map<string, bool>,                // whether each task card's check box is ticked
    notes: seq<string>,                      // the texts of the notes array
    playlist: Option<string>,                // the playlist embedded in the music card
    calculator: Calculator.Calc)

  /** The state once the page has loaded. */
  const Initial: Session :=
    Session([], 0, 0, 0, [], map[], map[], Mood.SampleNotes, None, Calculator.Initial)

  predicate NoDuplicates(ids: seq<string>) {
    forall i, j :: 0 <= i < j < |ids| ==> ids[i] != ids[j]
  }

  /**
   The invariant every event keeps: card ids are distinct, every card was
   counted, every registered timer and every check box belongs to a card
   on the page, every registered timer's id carries the timer tag, and the
   history is within its cap.
   */
  predicate Valid(s: Session) {
    && NoDuplicates(s.cards)
    && s.commandCount >= |s.cards|
    && (forall id :: id in s.timers ==> id in s.cards && Contains(id, TimerTag))
    && (forall id :: id in s.boxes ==> id in s.cards)
    && |s.history| <= Cap
  }

  lemma InitialValid()
    ensures Valid(Initial)
  {
  }

  // ---------------------------------------------------------------------
  // Cards and counters
  // ---------------------------------------------------------------------

  /** A counter taken down by one, but never below zero. */
  function Decrement(n: nat): nat {
    if n == 0 then 0 else n - 1
  }

  /** The list without `x`. */
  function Without(xs: seq<string>, x: string): (r: seq<string>)
    ensures forall y :: y in r <==> y in xs && y != x
    ensures |r| <= |xs|
    ensures x !in xs ==> r == xs
  {
    if xs == [] then []
    else if xs[0] == x then Without(xs[1..], x)
    else [xs[0]] + Without(xs[1..], x)
  }

  lemma {:induction false} WithoutKeepsDistinct(xs: seq<string>, x: string)
    requires NoDuplicates(xs)
    ensures NoDuplicates(Without(xs, x))
    ensures x in xs ==> |Without(xs, x)| == |xs| - 1
    decreases |xs|
  {
    if xs != [] {
      assert NoDuplicates(xs[1..]) by {
        forall i, j | 0 <= i < j < |xs[1..]| ensures xs[1..][i] != xs[1..][j] {
          assert xs[1..][i] == xs[i + 1] && xs[1..][j] == xs[j + 1];
        }
      }
      WithoutKeepsDistinct(xs[1..], x);
      if xs[0] != x {
        assert xs[0] !in xs[1..] by {
          forall k | 0 <= k < |xs[1..]| ensures xs[1..][k] != xs[0] {
            assert xs[1..][k] == xs[k + 1];
          }
        }
        var r := [xs[0]] + Without(xs[1..], x);
        forall i, j | 0 <= i < j < |r| ensures r[i] != r[j] {
          if i == 0 {
            assert r[j] in Without(xs[1..], x);
          }
        }
      } else {
        assert x !in xs[1..] by {
          forall k | 0 <= k < |xs[1..]| ensures xs[1..][k] != x {
            assert xs[1..][k] == xs[k + 1];
          }
        }
      }
    }
  }

  /** Removing the last element of a list in which it occurs once gives the rest back. */
  lemma {:induction false} WithoutLast(xs: seq<string>, x: string)
    requires x !in xs
    ensures Without(xs + [x], x) == xs
    decreases |xs|
  {
    if xs == [] {
      assert [x][1..] == [];
    } else {
      assert (xs + [x])[1..] == xs[1..] + [x];
      WithoutLast(xs[1..], x);
      assert [xs[0]] + xs[1..] == xs;
    }
  }

  /** `createCard(id, …)`: nothing happens when a card with that id is on the page. */
  function CreateCard(s: Session, id: string): (r: Session)
    ensures id in s.cards ==> r == s
    ensures id !in s.cards ==> r.cards == s.cards + [id] && r.commandCount == s.commandCount + 1
    ensures id !in s.cards ==> r == s.(cards := r.cards, commandCount := r.commandCount)
  {
    if id in s.cards then s
    else s.(cards := s.cards + [id], commandCount := s.commandCount + 1)
  }

  /**
   `removeCard(id)`, with the card taken off at once: nothing happens for an
   id not on the page; otherwise the note and task counters drop by one,
   never below zero, for ids containing their tag, and a timer id leaves the
   registry. The card's check box goes with it.
   */
  function RemoveCard(s: Session, id: string): (r: Session)
    ensures id !in s.cards ==> r == s
    ensures id in s.cards ==> id !in r.cards && (forall x :: x in r.cards <==> x in s.cards && x != id)
    ensures id in s.cards ==>
              && r.notesCount == (if Contains(id, NoteTag) then Decrement(s.notesCount) else s.notesCount)
              && r.tasksCount == (if Contains(id, TaskTag) then Decrement(s.tasksCount) else s.tasksCount)
              && r.timers == (if Contains(id, TimerTag) then s.timers - {id} else s.timers)
    ensures r.commandCount == s.commandCount && r.history == s.history && r.notes == s.notes
    ensures r.playlist == s.playlist && r.calculator == s.calculator
    ensures id in s.cards ==> r.boxes == s.boxes - {id}
  {
    if id !in s.cards then s
    else
      s.(cards := Without(s.cards, id),
         notesCount := if Contains(id, NoteTag) then Decrement(s.notesCount) else s.notesCount,
         tasksCount := if Contains(id, TaskTag) then Decrement(s.tasksCount) else s.tasksCount,
         timers := if Contains(id, TimerTag) then s.timers - {id} else s.timers,
         boxes := s.boxes - {id})
  }

  /** `addToChatHistory(command, action)`. */
  function Log(s: Session, command: string, action: string, now: Stamp): (r: Session)
    ensures r.history == Add(s.history, Entry(command, action, now))
    ensures r == s.(history := r.history)
  {
    s.(history := Add(s.history, Entry(command, action, now)))
  }

  /** The `show…` functions for the fixed cards: create the card, then log the command. */
  function ShowCard(s: Session, id: string, command: string, action: string, now: Stamp): Session {
    Log(CreateCard(s, id), command, action, now)
  }

  /**
   `showCalculator`: a newly created card's display starts at "0", while
   `calcVal` keeps whatever it held when an earlier calculator card was closed.
   */
  function ShowCalculator(s: Session, now: Stamp): Session {
    var created := CreateCard(s, CalculatorCard);
    var r := if CalculatorCard in s.cards then created else created.(calculator := created.calculator.(display := "0"));
    Log(r, "show calculator", "Advanced Calculator", now)
  }

  /** `createNote`: the notes counter goes up whether or not a card was created. */
  function CreateNote(s: Session, stamp: nat, now: Stamp): (r: Session)
    ensures r.notesCount == s.notesCount + 1
    ensures r.history == Add(s.history, Entry("create a note", "New Note Created", now))
  {
    var r := CreateCard(s, NoteId(stamp));
    Log(r.(notesCount := r.notesCount + 1), "create a note", "New Note Created", now)
  }

  /** `addTask(text)`: a new card brings an unticked check box; the tasks counter always goes up. */
  function AddTask(s: Session, text: string, stamp: nat, now: Stamp): (r: Session)
    ensures r.tasksCount == s.tasksCount + 1
    ensures r.history == Add(s.history, Entry("add a task: " + text, "New Task Added", now))
  {
    var id := TaskId(stamp);
    var created := CreateCard(s, id);
    var r := if id in s.cards then created else created.(boxes := created.boxes[id := false]);
    Log(r.(tasksCount := r.tasksCount + 1), "add a task: " + text, "New Task Added", now)
  }

  /** `setTimer(minutes)`: the card, a fresh countdown in the registry, and the log entry. */
  function SetTimer(s: Session, minutes: nat, stamp: nat, now: Stamp): (r: Session)
    ensures TimerId(stamp) in r.timers && r.timers[TimerId(stamp)] == Countdown.Start(minutes)
  {
    var id := TimerId(stamp);
    var r := CreateCard(s, id);
    Log(r.(timers := r.timers[id := Countdown.Start(minutes)]),
        "set a timer for " + Decimal.Show(minutes) + " minutes", "Countdown Timer", now)
  }

  /** `toggleTaskCompletion(id)` after a click on the box: a box that is not on the page makes it throw, leaving the state alone. */
  function ToggleTask(s: Session, id: string): (r: Session)
    ensures id !in s.boxes ==> r == s
  {
    if id !in s.boxes then s
    else
      var ticked := !s.boxes[id];
      s.(boxes := s.boxes[id := ticked],
         tasksCount := if ticked then Decrement(s.tasksCount) else s.tasksCount + 1)
  }

  /** `removeCard` on each id in turn. */
  function RemoveAll(s: Session, ids: seq<string>): Session
    decreases |ids|
  {
    if ids == [] then s else RemoveAll(RemoveCard(s, ids[0]), ids[1..])
  }

  /** `clearAllCards`: every card on the page is removed, then the command is logged. */
  function ClearAll(s: Session, now: Stamp): Session {
    Log(RemoveAll(s, s.cards), "clear all cards", "Cleared Dashboard", now)
  }

  /** `recommendMusic`: the playlist for the mood of the notes. */
  function Recommend(s: Session): Session {
    s.(playlist := Some(Mood.Playlist(Mood.NotesMood(s.notes))))
  }

  /** The answer to the mood question: the playlist for the mood the lower-cased answer names. */
  function HearMood(s: Session, transcript: string): Session {
    s.(playlist := Some(Mood.Playlist(Mood.UtteranceMood(Lower(transcript)))))
  }

  /**
   What the command handler does for each intent. `showYouTube` and
   `playMusic` are not defined in script.js; the model takes it that no other
   script of the page defines them, so calling them throws and nothing changes.
   */
  function Dispatch(s: Session, intent: Matcher.Intent, cmd: string, stamp: nat, now: Stamp): Session {
    match intent
    case ShowWeather => ShowCard(s, WeatherCard, "show weather", "Weather Forecast", now)
    case ShowCalculator => ShowCalculator(s, now)
    case ShowGps => ShowCard(s, GpsCard, "show gps", "GPS Location Services", now)
    case ShowClock => ShowCard(s, ClockCard, "show clock", "Live World Clock", now)
    case ShowYouTube => s
    case PlayMusic => s
    case AskMood => Log(s, cmd, "Asked Mood & Recommended Music", now)
    case RecommendMusic => Log(Recommend(s), cmd, "Music Recommendation Based on Notes", now)
    case CreateNote => CreateNote(s, stamp, now)
    case AddTask(text) => AddTask(s, text, stamp, now)
    case SetTimer(minutes) => SetTimer(s, minutes, stamp, now)
    case ShowNews => ShowCard(s, NewsCard, "show the news", "News Headlines", now)
    case ShowQuote => ShowCard(s, QuoteCard, "show a random quote", "Random Quote", now)
    case ClearAll => ClearAll(s, now)
    case Unrecognized(command) => Log(s, command, "Unrecognized Command", now)
  }

  /** The events the page reacts to. */
  datatype Event =
    | Command(transcript: string, stamp: nat, now: Stamp)      // a recognised voice command
    | MoodAnswer(transcript: string)                          // the answer to the mood question
    | CloseCard(id: string)                                   // a card's close button
    | TimerSecond(id: string)                                 // one firing of a timer's interval
    | CheckTask(id: string)                                   // a click on a task's check box
    | CalcKey(key: string, eval: string -> Option<string>)    // a calculator button
    | CalcClear                                               // the calculator's "Clear All" button

  function Step(s: Session, e: Event): Session {
    match e
    case Command(transcript, stamp, now) =>
      var cmd := Lower(transcript);
      Dispatch(s, Matcher.Match(cmd), cmd, stamp, now)
    case MoodAnswer(transcript) => HearMood(s, transcript)
    case CloseCard(id) => RemoveCard(s, id)
    case TimerSecond(id) =>
      if id in s.timers then s.(timers := s.timers[id := Countdown.Tick(s.timers[id])]) else s
    case CheckTask(id) => ToggleTask(s, id)
    case CalcKey(key, eval) =>
      if CalculatorCard in s.cards then s.(calculator := Calculator.Press(s.calculator, key, eval)) else s
    case CalcClear =>
      s.(calculator := if CalculatorCard in s.cards then Calculator.Clear(s.calculator) else s.calculator.(entry := ""))
  }

  // ---------------------------------------------------------------------
  // The invariant
  // ---------------------------------------------------------------------

  lemma CreateCardValid(s: Session, id: string)
    requires Valid(s)
    ensures Valid(CreateCard(s, id))
  {
    if id !in s.cards {
      var c := s.cards + [id];
      forall i, j | 0 <= i < j < |c| ensures c[i] != c[j] {
        if j == |s.cards| {
          assert c[i] == s.cards[i];
        }
      }
    }
  }

  lemma RemoveCardValid(s: Session, id: string)
    requires Valid(s)
    ensures Valid(RemoveCard(s, id))
    ensures id in s.cards ==> |RemoveCard(s, id).cards| == |s.cards| - 1
  {
    WithoutKeepsDistinct(s.cards, id);
  }

  lemma {:induction false} RemoveAllValid(s: Session, ids: seq<string>)
    requires Valid(s)
    ensures Valid(RemoveAll(s, ids))
    decreases |ids|
  {
    if ids != [] {
      RemoveCardValid(s, ids[0]);
      RemoveAllValid(RemoveCard(s, ids[0]), ids[1..]);
    }
  }

  lemma LogValid(s: Session, command: string, action: string, now: Stamp)
    requires Valid(s)
    ensures Valid(Log(s, command, action, now))
  {
    AddBounded(s.history, Entry(command, action, now));
  }

  lemma ShowCardValid(s: Session, id: string, command: string, action: string, now: Stamp)
    requires Valid(s)
    ensures Valid(ShowCard(s, id, command, action, now))
  {
    CreateCardValid(s, id);
    LogValid(CreateCard(s, id), command, action, now);
  }

  lemma ShowCalculatorValid(s: Session, now: Stamp)
    requires Valid(s)
    ensures Valid(ShowCalculator(s, now))
  {
    CreateCardValid(s, CalculatorCard);
    var created := CreateCard(s, CalculatorCard);
    var r := if CalculatorCard in s.cards then created else created.(calculator := created.calculator.(display := "0"));
    LogValid(r, "show calculator", "Advanced Calculator", now);
  }

  lemma CreateNoteValid(s: Session, stamp: nat, now: Stamp)
    requires Valid(s)
    ensures Valid(CreateNote(s, stamp, now))
  {
    CreateCardValid(s, NoteId(stamp));
    var r := CreateCard(s, NoteId(stamp));
    LogValid(r.(notesCount := r.notesCount + 1), "create a note", "New Note Created", now);
  }

  lemma AddTaskValid(s: Session, text: string, stamp: nat, now: Stamp)
    requires Valid(s)
    ensures Valid(AddTask(s, text, stamp, now))
  {
    var id := TaskId(stamp);
    CreateCardValid(s, id);
    var created := CreateCard(s, id);
    var r := if id in s.cards then created else created.(boxes := created.boxes[id := false]);
    LogValid(r.(tasksCount := r.tasksCount + 1), "add a task: " + text, "New Task Added", now);
  }

  lemma SetTimerValid(s: Session, minutes: nat, stamp: nat, now: Stamp)
    requires Valid(s)
    ensures Valid(SetTimer(s, minutes, stamp, now))
  {
    var id := TimerId(stamp);
    TimerIdTags(stamp);
    CreateCardValid(s, id);
    var r := CreateCard(s, id);
    LogValid(r.(timers := r.timers[id := Countdown.Start(minutes)]),
             "set a timer for " + Decimal.Show(minutes) + " minutes", "Countdown Timer", now);
  }

  lemma ClearAllValid(s: Session, now: Stamp)
    requires Valid(s)
    ensures Valid(ClearAll(s, now))
  {
    RemoveAllValid(s, s.cards);
    LogValid(RemoveAll(s, s.cards), "clear all cards", "Cleared Dashboard", now);
  }

  lemma DispatchValid(s: Session, intent: Matcher.Intent, cmd: string, stamp: nat, now: Stamp)
    requires Valid(s)
    ensures Valid(Dispatch(s, intent, cmd, stamp, now))
  {
    match intent
    case ShowWeather => ShowCardValid(s, WeatherCard, "show weather", "Weather Forecast", now);
    case ShowCalculator => ShowCalculatorValid(s, now);
    case ShowGps => ShowCardValid(s, GpsCard, "show gps", "GPS Location Services", now);
    case ShowClock => ShowCardValid(s, ClockCard, "show clock", "Live World Clock", now);
    case ShowYouTube =>
    case PlayMusic =>
    case AskMood => LogValid(s, cmd, "Asked Mood & Recommended Music", now);
    case RecommendMusic => LogValid(Recommend(s), cmd, "Music Recommendation Based on Notes", now);
    case CreateNote => CreateNoteValid(s, stamp, now);
    case AddTask(text) => AddTaskValid(s, text, stamp, now);
    case SetTimer(minutes) => SetTimerValid(s, minutes, stamp, now);
    case ShowNews => ShowCardValid(s, NewsCard, "show the news", "News Headlines", now);
    case ShowQuote => ShowCardValid(s, QuoteCard, "show a random quote", "Random Quote", now);
    case ClearAll => ClearAllValid(s, now);
    case Unrecognized(command) => LogValid(s, command, "Unrecognized Command", now);
  }

  /** Every event keeps the invariant. */
  lemma StepValid(s: Session, e: Event)
    requires Valid(s)
    ensures Valid(Step(s, e))
  {
    match e
    case Command(transcript, stamp, now) =>
      DispatchValid(s, Matcher.Match(Lower(transcript)), Lower(transcript), stamp, now);
    case CloseCard(id) => RemoveCardValid(s, id);
    case _ =>
  }

  /** The events one after the other, the first first. */
  function Run(s: Session, es: seq<Event>): Session
    decreases |es|
  {
    if es == [] then s else Run(Step(s, es[0]), es[1..])
  }

  /** Every state the page can reach from loading satisfies the invariant. */
  lemma {:induction false} RunValid(s: Session, es: seq<Event>)
    requires Valid(s)
    ensures Valid(Run(s, es))
    decreases |es|
  {
    if es != [] {
      StepValid(s, es[0]);
      RunValid(Step(s, es[0]), es[1..]);
    }
  }
}

=== FILE: session_laws.dfy ===
/**
 Properties of the dashboard's state transitions: opening and closing a
 card, ticking a task twice, the life of a timer in the registry, and
 where each kind of transcript ends up.
 */
module SessionLaws {
  import opened Wrappers
  import opened Text
  import opened History
  import Matcher
  import Mood
  import MoodExamples
  import Countdown
  import Calculator
  import opened Session

  // ---------------------------------------------------------------------
  // Cards and counters
  // ---------------------------------------------------------------------

  /** Creating a card that is already on the page is the same as creating it once. */
  lemma CreateCardIdempotent(s: Session, id: string)
    ensures CreateCard(CreateCard(s, id), id) == CreateCard(s, id)
  {
  }

  /**
   Closing a card just created undoes the creation, except that the command
   counter keeps its increment and the counter the id's tag names drops.
   */
  lemma CloseNewCard(s: Session, id: string)
    requires Valid(s) && id !in s.cards
    ensures RemoveCard(CreateCard(s, id), id) ==
              s.(commandCount := s.commandCount + 1,
                 notesCount := if Contains(id, NoteTag) then Decrement(s.notesCount) else s.notesCount,
                 tasksCount := if Contains(id, TaskTag) then Decrement(s.tasksCount) else s.tasksCount)
  {
    WithoutLast(s.cards, id);
    assert id !in s.timers && id !in s.boxes;
    assert s.timers - {id} == s.timers;
    assert s.boxes - {id} == s.boxes;
  }

  /** Closing the card of a note just created leaves the cards and the counters of notes and tasks as they were. */
  lemma NoteOpenClose(s: Session, stamp: nat, now: Stamp)
    requires Valid(s) && NoteId(stamp) !in s.cards
    ensures var r := RemoveCard(CreateNote(s, stamp, now), NoteId(stamp));
            r.cards == s.cards && r.notesCount == s.notesCount && r.tasksCount == s.tasksCount &&
            r.commandCount == s.commandCount + 1
  {
    NoteIdTags(stamp);
    WithoutLast(s.cards, NoteId(stamp));
  }

  /** Closing the card of a task just added leaves the cards, the tasks counter and the check boxes as they were. */
  lemma TaskOpenClose(s: Session, text: string, stamp: nat, now: Stamp)
    requires Valid(s) && TaskId(stamp) !in s.cards
    ensures var r := RemoveCard(AddTask(s, text, stamp, now), TaskId(stamp));
            r.cards == s.cards && r.tasksCount == s.tasksCount && r.notesCount == s.notesCount &&
            r.boxes == s.boxes
  {
    var id := TaskId(stamp);
    TaskIdTags(stamp);
    WithoutLast(s.cards, id);
    assert id !in s.boxes;
    assert s.boxes[id := false] - {id} == s.boxes;
  }

  /** Closing the card of a timer just set takes it out of the registry again. */
  lemma TimerOpenClose(s: Session, minutes: nat, stamp: nat, now: Stamp)
    requires Valid(s) && TimerId(stamp) !in s.cards
    ensures var r := RemoveCard(SetTimer(s, minutes, stamp, now), TimerId(stamp));
            r.cards == s.cards && r.timers == s.timers && r.notesCount == s.notesCount && r.tasksCount == s.tasksCount
  {
    var id := TimerId(stamp);
    TimerIdTags(stamp);
    WithoutLast(s.cards, id);
    assert id !in s.timers;
    assert s.timers[id := Countdown.Start(minutes)] - {id} == s.timers;
  }

  /**
   Ticking a task's box twice restores the box; the tasks counter comes back
   too unless the box started unticked with the counter already at zero,
   where the clamp swallows the decrement and the counter ends one higher.
   */
  lemma ToggleTwice(s: Session, id: string)
    requires id in s.boxes
    ensures ToggleTask(ToggleTask(s, id), id).boxes == s.boxes
    ensures ToggleTask(ToggleTask(s, id), id).tasksCount == s.tasksCount <==> s.boxes[id] || s.tasksCount > 0
  {
    var once := ToggleTask(s, id);
    assert once.boxes[id] == !s.boxes[id];
    assert once.boxes[id := s.boxes[id]] == s.boxes;
  }

  /** Ticking a box counts one task fewer, never below zero; unticking it counts one more. */
  lemma ToggleCounts(s: Session, id: string)
    requires id in s.boxes
    ensures ToggleTask(s, id).boxes == s.boxes[id := !s.boxes[id]]
    ensures !s.boxes[id] ==> ToggleTask(s, id).tasksCount == if s.tasksCount == 0 then 0 else s.tasksCount - 1
    ensures s.boxes[id] ==> ToggleTask(s, id).tasksCount == s.tasksCount + 1
  {
  }

  // ---------------------------------------------------------------------
  // Clearing the dashboard
  // ---------------------------------------------------------------------

  /** Removing every card of a valid state, in page order, leaves no card, no timer and no check box. */
  lemma {:induction false} RemoveAllEmpties(s: Session, ids: seq<string>)
    requires Valid(s) && ids == s.cards
    ensures RemoveAll(s, ids).cards == []
    ensures RemoveAll(s, ids).timers == map[] && RemoveAll(s, ids).boxes == map[]
    decreases |ids|
  {
    if ids == [] {
      assert s.timers.Keys == {};
      assert s.boxes.Keys == {};
    } else {
      var r := RemoveCard(s, ids[0]);
      RemoveCardValid(s, ids[0]);
      assert r.cards == Without(ids, ids[0]);
      WithoutHead(ids);
      RemoveAllEmpties(r, ids[1..]);
    }
  }

  /** In a list without duplicates, removing the first element leaves the rest. */
  lemma WithoutHead(ids: seq<string>)
    requires ids != [] && NoDuplicates(ids)
    ensures Without(ids, ids[0]) == ids[1..]
  {
    assert ids[0] !in ids[1..] by {
      forall k | 0 <= k < |ids[1..]| ensures ids[1..][k] != ids[0] {
        assert ids[1..][k] == ids[k + 1];
      }
    }
  }

  /** "clear all cards" leaves an empty dashboard with an empty timer registry, and logs itself. */
  lemma ClearAllEmpties(s: Session, now: Stamp)
    requires Valid(s)
    ensures ClearAll(s, now).cards == [] && ClearAll(s, now).timers == map[] && ClearAll(s, now).boxes == map[]
    ensures ClearAll(s, now).history[0] == Entry("clear all cards", "Cleared Dashboard", now)
  {
    RemoveAllEmpties(s, s.cards);
  }

  // ---------------------------------------------------------------------
  // The timer registry
  // ---------------------------------------------------------------------

  /** An intent other than clearing the dashboard keeps every registered timer registered. */
  lemma DispatchKeepsTimers(s: Session, intent: Matcher.Intent, cmd: string, stamp: nat, now: Stamp, id: string)
    requires id in s.timers && !intent.ClearAll?
    ensures id in Dispatch(s, intent, cmd, stamp, now).timers
  {
  }

  /**
   A registered timer stays registered through every event except closing
   its own card and clearing the dashboard; in particular expiring does not
   unregister it.
   */
  lemma TimerKeySurvives(s: Session, e: Event, id: string)
    requires id in s.timers
    requires !(e.CloseCard? && e.id == id)
    requires !(e.Command? && Matcher.Match(Lower(e.transcript)).ClearAll?)
    ensures id in Step(s, e).timers
  {
    if e.Command? {
      DispatchKeepsTimers(s, Matcher.Match(Lower(e.transcript)), Lower(e.transcript), e.stamp, e.now, id);
    }
  }

  /** Closing a timer's card takes it out of the registry. */
  lemma CloseTimer(s: Session, id: string)
    requires Valid(s) && id in s.timers
    ensures id !in Step(s, CloseCard(id)).timers
  {
  }

  /** `k` firings of one timer's interval. */
  function Seconds(id: string, k: nat): (es: seq<Event>)
    ensures |es| == k
    ensures forall i :: 0 <= i < k ==> es[i] == TimerSecond(id)
  {
    seq(k, i => TimerSecond(id))
  }

  /** While its firings go on, a registered timer stays registered and counts down as the countdown model says. */
  lemma {:induction false} SecondsTick(s: Session, id: string, k: nat)
    requires id in s.timers
    ensures id in Run(s, Seconds(id, k)).timers
    ensures Run(s, Seconds(id, k)).timers[id] == Countdown.Run(s.timers[id], k)
    ensures Run(s, Seconds(id, k)).timers.Keys == s.timers.Keys
    decreases k
  {
    if k > 0 {
      var s1 := Step(s, TimerSecond(id));
      assert Seconds(id, k)[1..] == Seconds(id, k - 1);
      SecondsTick(s1, id, k - 1);
    }
  }

  /**
   A timer set for `minutes` runs for `minutes * 60` firings and has
   expired after one more, and it is still in the registry either way.
   */
  lemma ExpiredStaysRegistered(s: Session, minutes: nat, stamp: nat, now: Stamp, k: nat)
    ensures var r := Run(SetTimer(s, minutes, stamp, now), Seconds(TimerId(stamp), k));
            TimerId(stamp) in r.timers && (r.timers[TimerId(stamp)].running <==> k <= minutes * 60)
  {
    var s1 := SetTimer(s, minutes, stamp, now);
    SecondsTick(s1, TimerId(stamp), k);
    Countdown.Expiry(minutes, k);
  }

  // ---------------------------------------------------------------------
  // Routing
  // ---------------------------------------------------------------------

  /** A command is the dispatch of what the matcher makes of the lower-cased transcript. */
  lemma CommandDispatch(s: Session, transcript: string, stamp: nat, now: Stamp)
    ensures Step(s, Command(transcript, stamp, now)) ==
              Dispatch(s, Matcher.Match(Lower(transcript)), Lower(transcript), stamp, now)
  {
  }

  /** An unrecognised command only logs the lower-cased transcript. */
  lemma UnrecognizedOnlyLogs(s: Session, transcript: string, stamp: nat, now: Stamp)
    requires Matcher.Match(Lower(transcript)).Unrecognized?
    ensures Step(s, Command(transcript, stamp, now)) ==
              s.(history := Add(s.history, Entry(Lower(transcript), "Unrecognized Command", now)))
  {
    Matcher.MatchSpec(Lower(transcript));
    CommandDispatch(s, transcript, stamp, now);
    DispatchUnrecognized(s, Matcher.Match(Lower(transcript)), Lower(transcript), stamp, now);
  }

  lemma DispatchUnrecognized(s: Session, intent: Matcher.Intent, cmd: string, stamp: nat, now: Stamp)
    requires intent.Unrecognized?
    ensures Dispatch(s, intent, cmd, stamp, now) == s.(history := Add(s.history, Entry(intent.command, "Unrecognized Command", now)))
  {
  }

  /** The YouTube and music commands call functions script.js does not define: nothing changes. */
  lemma UndefinedHandlers(s: Session, transcript: string, stamp: nat, now: Stamp)
    requires Matcher.Match(Lower(transcript)).ShowYouTube? || Matcher.Match(Lower(transcript)).PlayMusic?
    ensures Step(s, Command(transcript, stamp, now)) == s
  {
    CommandDispatch(s, transcript, stamp, now);
    DispatchUndefined(s, Matcher.Match(Lower(transcript)), Lower(transcript), stamp, now);
  }

  lemma DispatchUndefined(s: Session, intent: Matcher.Intent, cmd: string, stamp: nat, now: Stamp)
    requires intent.ShowYouTube? || intent.PlayMusic?
    ensures Dispatch(s, intent, cmd, stamp, now) == s
  {
  }

  /** The playlist shown after a mood answer names exactly the mood the utterance classifier reads in it. */
  lemma MoodAnswerPlaylist(s: Session, transcript: string)
    ensures forall m :: Step(s, MoodAnswer(transcript)).playlist == Some(Mood.Playlist(m)) <==>
                        m == Mood.UtteranceMood(Lower(transcript))
  {
    forall m ensures Mood.Playlist(m) == Mood.Playlist(Mood.UtteranceMood(Lower(transcript))) <==>
                     m == Mood.UtteranceMood(Lower(transcript)) {
      Mood.PlaylistInjective(m, Mood.UtteranceMood(Lower(transcript)));
    }
  }

  /** After a music recommendation the playlist names exactly the mood of the notes, and the command is logged. */
  lemma RecommendPlaylist(s: Session, transcript: string, stamp: nat, now: Stamp)
    requires Matcher.Match(Lower(transcript)) == Matcher.RecommendMusic
    ensures forall m :: Step(s, Command(transcript, stamp, now)).playlist == Some(Mood.Playlist(m)) <==>
                        m == Mood.NotesMood(s.notes)
    ensures Step(s, Command(transcript, stamp, now)).history ==
              Add(s.history, Entry(Lower(transcript), "Music Recommendation Based on Notes", now))
  {
    CommandDispatch(s, transcript, stamp, now);
    forall m ensures Mood.Playlist(m) == Mood.Playlist(Mood.NotesMood(s.notes)) <==> m == Mood.NotesMood(s.notes) {
      Mood.PlaylistInjective(m, Mood.NotesMood(s.notes));
    }
  }

  /** On the notes the page starts with, a recommendation plays the happy playlist. */
  lemma InitialRecommendHappy()
    ensures Recommend(Initial).playlist == Some(Mood.Playlist(Mood.Happy))
  {
    MoodExamples.SampleNotesHappy();
  }

  // ---------------------------------------------------------------------
  // The calculator card
  // ---------------------------------------------------------------------

  /**
   Reopening the calculator resets only its display: the entry left from
   the closed card stays, so the next digit is appended to it although the
   display showed "0".
   */
  lemma ReopenedCalculator(s: Session, now: Stamp, key: string, eval: string -> Option<string>)
    requires CalculatorCard !in s.cards
    requires key != "=" && key != "C" && key != Calculator.BackKey && key != Calculator.SignKey
    ensures ShowCalculator(s, now).calculator == Calculator.Calc(s.calculator.entry, "0")
    ensures Step(ShowCalculator(s, now), CalcKey(key, eval)).calculator.entry == Calculator.AppendKey(s.calculator.entry, key)
  {
    assert CalculatorCard in ShowCalculator(s, now).cards;
  }

  /** Calculator buttons are ignored while no calculator card is on the page; the clear button still empties the entry. */
  lemma CalculatorNeedsCard(s: Session, key: string, eval: string -> Option<string>)
    requires CalculatorCard !in s.cards
    ensures Step(s, CalcKey(key, eval)) == s
    ensures Step(s, CalcClear).calculator == s.calculator.(entry := "")
  {
  }
}

=== FILE: text.dfy ===
/**
 The JavaScript string primitives the dashboard relies on, over `seq<char>`:
 `includes`, `indexOf`, `replace` with a string pattern (first occurrence
 only), `trim`, `toLowerCase` and `Array.prototype.join`.
 */
module Text {
  import opened Wrappers

  /** `p` occurs in `s` starting at index `i`. */
  predicate OccursAt(s: string, p: string, i: int) {
    0 <= i && i + |p| <= |s| && s[i..i + |p|] == p
  }

  /** `i` is the leftmost index at which `p` occurs in `s`. */
  predicate FirstOccurrence(s: string, p: string, i: int) {
    OccursAt(s, p, i) && forall j :: 0 <= j < i ==> !OccursAt(s, p, j)
  }

  /** The leftmost occurrence of `p` in `s` at or after index `i`. */
  function IndexFrom(s: string, p: string, i: nat): (r: Option<nat>)
    requires i <= |s|
    decreases |s| - i
    ensures r.Some? ==> i <= r.value && OccursAt(s, p, r.value)
    ensures r.Some? ==> forall j :: i <= j < r.value ==> !OccursAt(s, p, j)
    ensures r.None? ==> forall j :: i <= j ==> !OccursAt(s, p, j)
  {
    if OccursAt(s, p, i) then Some(i)
    else if i == |s| then None
    else IndexFrom(s, p, i + 1)
  }

  /** `s.indexOf(p)`, with -1 rendered as None. */
  function IndexOf(s: string, p: string): (r: Option<nat>)
    ensures r.Some? <==> exists i :: OccursAt(s, p, i)
    ensures r.Some? ==> FirstOccurrence(s, p, r.value)
  {
    IndexFrom(s, p, 0)
  }

  /** `s.includes(p)`. */
  predicate Contains(s: string, p: string) {
    IndexOf(s, p).Some?
  }

  /** An occurrence anywhere is enough for `includes`. */
  lemma OccursContains(s: string, p: string, i: int)
    requires OccursAt(s, p, i)
    ensures Contains(s, p)
  {
  }

  /** A pattern with a character the text lacks does not occur in it. */
  lemma MissingChar(s: string, p: string, c: char)
    requires c in p && c !in s
    ensures !Contains(s, p)
  {
    var k :| 0 <= k < |p| && p[k] == c;
    forall i | 0 <= i && i + |p| <= |s| ensures !OccursAt(s, p, i) {
      assert s[i..i + |p|][k] == s[i + k];
    }
  }

  /** `includes` is transitive: a text containing `p` contains everything `p` contains. */
  lemma ContainsTransitive(s: string, p: string, q: string)
    requires Contains(s, p) && Contains(p, q)
    ensures Contains(s, q)
  {
    var i := IndexOf(s, p).value;
    var j := IndexOf(p, q).value;
    assert s[i + j..i + j + |q|] == s[i..i + |p|][j..j + |q|];
    OccursContains(s, q, i + j);
  }

  /** `s.replace(p, rep)` for a string pattern: only the leftmost occurrence is replaced. */
  function ReplaceFirst(s: string, p: string, rep: string): (r: string)
    ensures !Contains(s, p) ==> r == s
    ensures Contains(s, p) ==>
              var i := IndexOf(s, p).value;
              FirstOccurrence(s, p, i) && r == s[..i] + rep + s[i + |p|..]
  {
    match IndexOf(s, p)
    case None => s
    case Some(i) => s[..i] + rep + s[i + |p|..]
  }

  /** `s.replace(/p/g, rep)`: every non-overlapping occurrence, scanning left to right. */
  function ReplaceAll(s: string, p: string, rep: string): (r: string)
    requires |p| > 0
    ensures !Contains(s, p) ==> r == s
    decreases |s|
  {
    match IndexOf(s, p)
    case None => s
    case Some(i) => s[..i] + rep + ReplaceAll(s[i + |p|..], p, rep)
  }

  /** The ECMAScript WhiteSpace and LineTerminator characters outside the U+2000..U+200A block. */
  const SpaceChars: seq<char> :=
    ['\t', '\n', '\U{000B}', '\U{000C}', '\r', ' ', '\U{00A0}', '\U{1680}',
     '\U{2028}', '\U{2029}', '\U{202F}', '\U{205F}', '\U{3000}', '\U{FEFF}']

  /** The characters `trim` removes: ECMAScript WhiteSpace and LineTerminator. */
  predicate IsSpace(c: char) {
    OneOf(c, SpaceChars) || '\U{2000}' <= c <= '\U{200A}'
  }

  /** `c` is one of the characters listed in `cs`. */
  predicate OneOf(c: char, cs: seq<char>) {
    cs != [] && (cs[0] == c || OneOf(c, cs[1..]))
  }

  /** `OneOf` is membership in the list. */
  lemma {:induction false} OneOfIn(c: char, cs: seq<char>)
    ensures OneOf(c, cs) <==> c in cs
    decreases |cs|
  {
    if cs != [] {
      OneOfIn(c, cs[1..]);
      assert cs == [cs[0]] + cs[1..];
    }
  }

  /** No visible ASCII character is white space. */
  lemma VisibleNotSpace(c: char)
    requires '!' <= c <= '~'
    ensures !IsSpace(c)
  {
    OneOfIn(c, SpaceChars);
  }

  /** Every character of `s` is white space. */
  predicate AllSpace(s: string) {
    s == [] || (IsSpace(s[0]) && AllSpace(s[1..]))
  }

  /** A concatenation is all white space exactly when both parts are. */
  lemma {:induction false} AllSpaceConcat(a: string, b: string)
    ensures AllSpace(a + b) <==> AllSpace(a) && AllSpace(b)
    decreases |a|
  {
    if a != [] {
      assert (a + b)[1..] == a[1..] + b;
      AllSpaceConcat(a[1..], b);
    } else {
      assert a + b == b;
    }
  }

  /** Drops the leading white space: the result is the longest suffix not starting with it. */
  function TrimStart(s: string): (r: string)
    ensures |r| <= |s| && r == s[|s| - |r|..]
    ensures AllSpace(s[..|s| - |r|])
    ensures r == [] || !IsSpace(r[0])
  {
    if s != [] && IsSpace(s[0]) then
      var r := TrimStart(s[1..]);
      assert s[..|s| - |r|][1..] == s[1..][..|s| - 1 - |r|];
      r
    else s
  }

  /** Drops the trailing white space: the result is the longest prefix not ending with it. */
  function TrimEnd(s: string): (r: string)
    ensures |r| <= |s| && r == s[..|r|]
    ensures AllSpace(s[|r|..])
    ensures r == [] || !IsSpace(r[|r| - 1])
  {
    if s != [] && IsSpace(s[|s| - 1]) then
      var r := TrimEnd(s[..|s| - 1]);
      assert s[|r|..] == s[..|s| - 1][|r|..] + [s[|s| - 1]];
      AllSpaceConcat(s[..|s| - 1][|r|..], [s[|s| - 1]]);
      r
    else s
  }

  /** `s.trim()`: white space is cut from both ends (see TrimSpec). */
  function Trim(s: string): string {
    TrimEnd(TrimStart(s))
  }

  /**
   `trim` leaves the middle slice of `s` between an all-space prefix and an
   all-space suffix, and that slice neither starts nor ends with white space.
   */
  lemma TrimSpec(s: string)
    ensures |Trim(s)| <= |s|
    ensures OccursAt(s, Trim(s), |s| - |TrimStart(s)|)
    ensures AllSpace(s[..|s| - |TrimStart(s)|]) && AllSpace(s[|s| - |TrimStart(s)| + |Trim(s)|..])
    ensures Trim(s) == [] || (!IsSpace(Trim(s)[0]) && !IsSpace(Trim(s)[|Trim(s)| - 1]))
  {
    var t := TrimStart(s);
    MiddleSlice(s, |s| - |t|, Trim(s));
    if Trim(s) != [] {
      assert Trim(s)[0] == t[0];
    }
  }

  /** `trim` yields the empty string exactly on the all-white-space strings. */
  lemma TrimEmpty(s: string)
    ensures Trim(s) == [] <==> AllSpace(s)
  {
    var t := TrimStart(s);
    var r := Trim(s);
    MiddleSlice(s, |s| - |t|, r);
    if r != [] {
      assert r[0] == t[0];
    }
  }

  /** Trimming white space in front of a string that neither starts nor ends with white space gives that string back. */
  lemma {:induction false} TrimPadded(a: string, t: string)
    requires AllSpace(a)
    requires t != [] && !IsSpace(t[0]) && !IsSpace(t[|t| - 1])
    ensures Trim(a + t) == t
    decreases |a|
  {
    if a == [] {
      assert a + t == t;
    } else {
      assert (a + t)[1..] == a[1..] + t;
      TrimPadded(a[1..], t);
    }
  }

  /**
   When `r` is a prefix of the suffix of `s` from `i`, whose rest is all white
   space, `s` is all white space exactly when its first `i` characters and `r` are.
   */
  lemma MiddleSlice(s: string, i: nat, r: string)
    requires i <= |s| && |r| <= |s| - i
    requires r == s[i..][..|r|] && AllSpace(s[i..][|r|..])
    ensures OccursAt(s, r, i) && AllSpace(s[i + |r|..])
    ensures AllSpace(s) <==> AllSpace(s[..i]) && AllSpace(r)
  {
    assert s[i..][|r|..] == s[i + |r|..];
    assert s == s[..i] + (r + s[i + |r|..]);
    AllSpaceConcat(s[..i], r + s[i + |r|..]);
    AllSpaceConcat(r, s[i + |r|..]);
  }

  /** The Kelvin sign, whose lower case is the ASCII letter "k". */
  const KelvinSign: char := '\U{212A}'

  /**
   `toLowerCase` on one character: the ASCII capitals move 32 code points
   up to their small letters, the Kelvin sign becomes "k", and every other
   character is kept. Apart from the capital I with a dot above (U+0130,
   lowered to two characters), these are all the characters whose lower case
   is ASCII.
   */
  function LowerChar(c: char): (r: char)
    ensures 'A' <= c <= 'Z' ==> r as int == c as int + 32
    ensures c == KelvinSign ==> r == 'k'
    ensures !('A' <= r <= 'Z')
    ensures !('A' <= c <= 'Z') && c != KelvinSign ==> r == c
    ensures ('a' <= r <= 'z') <==> ('a' <= c <= 'z' || 'A' <= c <= 'Z' || c == KelvinSign)
  {
    if 'A' <= c <= 'Z' then (c as int + 32) as char
    else if c == KelvinSign then 'k'
    else c
  }

  /** `s.toLowerCase()`, one character at a time by LowerChar. */
  function Lower(s: string): (r: string)
    ensures |r| == |s|
    ensures forall k :: 0 <= k < |s| ==> r[k] == LowerChar(s[k])
  {
    seq(|s|, k requires 0 <= k < |s| => LowerChar(s[k]))
  }

  const Capitals: string := "ABCDEFGHIJKLMNOPQRSTUVWXYZ"
  const Smalls: string := "abcdefghijklmnopqrstuvwxyz"

  /** Each capital of the alphabet becomes the small letter in the same place, and small letters stay. */
  lemma LowerAlphabet()
    ensures Lower(Capitals) == Smalls
    ensures Lower(Smalls) == Smalls
  {
  }

  /** `xs.join(sep)`. */
  function Join(xs: seq<string>, sep: string): (r: string)
    ensures xs == [] ==> r == []
    ensures |xs| == 1 ==> r == xs[0]
  {
    if xs == [] then []
    else if |xs| == 1 then xs[0]
    else xs[0] + sep + Join(xs[1..], sep)
  }
}

=== FILE: wrappers.dfy ===
/** The optional-value datatype shared by the other modules. */
module Wrappers {

  datatype Option<+T> = None | Some(value: T)
}
